=== FILE: README.md ===
# sessionsnap, modelled in Dafny

sessionsnap saves the layout of an X11 desktop session and brings it back.
It has three parts, and this project models all three:

- **Window enumerator** (`src/capture.c`). It reads the EWMH `_NET_CLIENT_LIST` of the root window. For each client it queries:
  - `_NET_WM_PID`, the window name, the geometry, `_NET_WM_STATE` and `_NET_WM_DESKTOP`;
  - the process's `/proc/<pid>/cmdline` and `/proc/<pid>/exe`.

  It drops clients without a pid or a command, and clients whose first argument contains a deny-listed name. It keeps at most 256 records.
- **Session store** (`src/session.c`):
  - maps a profile name and `$HOME` to a file path;
  - serialises the window list to a JSON object (`windows`, an array of 11-member objects, and `count`);
  - loads such a file back into a zeroed window list.
- **Restore engine** (`src/restore.c`):
  - loads a profile and launches every stored command in order;
  - waits for each titled window by a substring of its title;
  - then either asks the window manager to maximize the window or moves and resizes it.

The X server is given as data:
- the client list, where None means `_NET_CLIENT_LIST` is missing or cannot be fetched;
- one `Client` record per window, holding the answers to the per-window queries;
- for restore, an oracle `polls: nat -> Option<seq<LiveWindow>>`. It gives the client list seen by each lookup, numbered across the whole restore.

The other inputs and outputs are modelled as follows:
- **Process table:** a map from pid to the cmdline bytes and the exe link.
- **Session files:** a map from a file to a JSON tree (RFC 8259 values). None in the map means the text does not parse. A file is a path as the kernel resolves it (`Paths.Resolve`; `Session.SessionFile` computes it from HOME and the profile, and `Session.SessionFileResolves` shows the two agree): the path is split at `/`, empty and `.` parts are skipped, and `..` goes back one directory. So `sessions/../session.json` and `session.json` in the same directory are one file.
- **`$HOME`:** a parameter.
- **Outputs of restore:** an action trace (`Launch`, `Maximize`, `MoveResize`, `Warn`).

Types and limits come from `include/capture.h` and `include/session.h`:
- `MAX_WINDOWS` 256, `MAX_CMD_ARGS` 64, `MAX_ARG_LEN` 512;
- a title buffer of 256 chars and an exe path buffer of 512 chars;
- a Dafny `char` stands for one C `char`, a byte, so the 255, 511 and 63 limits count bytes; a cut can fall inside a multi-byte UTF-8 character, as the `strncpy` calls at src/capture.c:118 and 178 and src/restore.c:126 can;
- the three path suffixes.

Integer behaviour:
- C `int` conversions of X CARDINALs are written out as 32-bit wrap-around (`CStrings.ToCInt`).
- The `(unsigned int)` casts of restore are written out modulo 2^32 (`CStrings.ToCUInt`).

Files: `wrappers.dfy`, `cstrings.dfy` (C string helpers), `paths.dfy` (how the kernel resolves a path), `snapshot.dfy` (the `WindowInfo` record), `json.dfy` (the JSON tree and the cJSON accessors the loader uses), `capture.dfy`, `session.dfy`, `restore.dfy`.

## Model

| member | source | states |
|---|---|---|
| CStrings.ContainsIff | src/capture.c:137 | `strstr` finds the needle exactly when it occurs at some offset of the haystack |
| CStrings.ToCInt | src/capture.c:32 | a CARDINAL read as C `int` keeps values below 2^31 and wraps larger ones to negatives |
| CStrings.ToCUInt | src/restore.c:152-153 | `(unsigned int)` keeps non-negative values below 2^32 and sends -1 to 2^32 - 1 |
| Capture.WindowPid | src/capture.c:17-35 | -1 when `_NET_WM_PID` cannot be read, otherwise the stored pid read as a C `int` (values from 2^31 up wrap to negatives) |
| Capture.WindowDesktop | src/capture.c:83-101 | 0 when `_NET_WM_DESKTOP` is missing, otherwise the stored desktop read as a C `int` (values from 2^31 up wrap to negatives, so the all-desktops value 0xFFFFFFFF reads as -1) |
| Capture.GetWindowState | src/capture.c:53-81 | `is_maximized` is 1 iff both the vertical and the horizontal maximize atoms are among the first 1024 state atoms; `is_minimized` is 1 iff the hidden atom is; both are 0 when the property cannot be read; both are 0 or 1 |
| Capture.CmdArgs | src/capture.c:117 | the splitter yields at most 64 arguments |
| Capture.CmdArgsBounded | src/capture.c:118-119 | every stored argument is shorter than 512 chars |
| Capture.TruncateArgsAt | src/capture.c:118-119 | the k-th stored argument is the k-th segment cut to its first 511 chars |
| Capture.SegEndAt | src/capture.c:120 | a segment ends at the first NUL at or after its start |
| Capture.SplitCmdline | src/capture.c:115-122 | the loop stores exactly the first 64 NUL-terminated segments of the buffer, in buffer order, each cut to 511 chars |
| Capture.SegmentsOfCmdline | src/capture.c:115-122 | splitting the NUL-terminated concatenation of NUL-free arguments gives those arguments back, in order |
| Capture.ProcessCmd | src/capture.c:103-128 | at most 64 arguments, each under 512 chars, and an exe path under 512 chars; no arguments and an empty exe path when `/proc/<pid>/cmdline` cannot be opened |
| Capture.GetProcessCmd | src/capture.c:103-128 | the method's reads of `/proc` give the command record specified by ProcessCmd |
| Capture.ProcessCmdOfArgv | src/capture.c:110-122 | a process whose cmdline file holds argv in the kernel's format gets the first 64 of argv, each cut to 511 chars |
| Capture.DeniedIff | src/capture.c:130-140 | a command is a system process iff one of the 13 deny-list names occurs in it as a substring |
| Capture.IsSystemProcess | src/capture.c:130-140 | the early-return search answers true exactly for deny-listed commands |
| Capture.ContainsShIsDenied | src/capture.c:134-137 | every command containing `sh` is rejected, `/usr/bin/ssh` included |
| Capture.ClientRecordDefaults | src/capture.c:167-185 | the record keeps the window id and pid; it has an empty title for a nameless window and otherwise the name cut to 255 chars; desktop 0 when the hint is missing; flags 0 when the state cannot be read; no arguments and an empty exe path when `/proc` cannot be read; `cmd_argc` counts the stored arguments |
| Capture.RecordsAt | src/capture.c:166-185 | the k-th record built is the record of the k-th client |
| Capture.ClientWindow | src/capture.c:167-190 | one loop turn keeps the client iff its pid is positive, it has a command and its first argument is not deny-listed; what it keeps is the client's record |
| Capture.CaptureWindows | src/capture.c:142-195 | the list is the first 256 retained records in client-list order, never more than 256; it is empty when the client list is unavailable |
| Capture.PositionsSorted | src/capture.c:166-191 | the positions of the retained clients strictly increase and each names a retained client |
| Capture.PositionsComplete | src/capture.c:166-191 | every retained client's position is among the retained positions |
| Capture.CapturedAt | src/capture.c:166-191 | the k-th captured record is the record of the client at the k-th captured position |
| Capture.CapturedInOrder | src/capture.c:166-191 | captured positions strictly increase: relative client-list order is kept |
| Capture.CapturedComplete | src/capture.c:166-191 | every retained client that the cap has not cut off is captured |
| Capture.CapturedRetained | src/capture.c:173-190 | every captured record has pid > 0, `cmd_argc` > 0 and a first argument that is not deny-listed, and it fits the C struct |
| Capture.CapturedDistinct | src/capture.c:166-191 | when client ids are distinct, no window is captured twice |
| Session.SessionPath | src/session.c:16-25 | the path fits the 512-byte buffer; when the spelled-out path fits, it is `HOME + "/.sessionsnap/session.json"` for a NULL or `"default"` name and `HOME + "/.sessionsnap/sessions/" + name + ".json"` otherwise, with HOME defaulting to `/tmp`; otherwise it is that path's first 511 chars |
| Session.ProfileIsolation | src/session.c:20-24 | a named profile never shares the default profile's path while HOME is short enough |
| Session.DistinctProfilesDistinctPaths | src/session.c:23 | distinct profile names give distinct paths while both paths fit the buffer |
| Session.LongHomeMergesProfiles | src/session.c:21-23 | with a 511-char HOME, the buffer cut gives two named profiles and the default one the same path |
| Session.NamedSessionFile | src/session.c:22-23 | a named profile whose name has no `/` gets the file `<name>.json` in `.sessionsnap/sessions` under HOME, while its path fits the buffer |
| Session.SessionFileResolves | src/session.c:16-25 | the file a profile's data goes to (`session.json` in `.sessionsnap` under HOME for the default profile, the parts of `<name>.json` walked from `.sessionsnap/sessions` for a named one) is the file its session path resolves to |
| Session.UpOneProfile | src/session.c:22-23 | the name goes into the path unchecked: with HOME set, the profile `../<name>` names `<name>.json` in `.sessionsnap` itself, next to the default file |
| Session.ExistsIffResolvedFile | src/session.c:39-43 | a profile exists iff the file its session path resolves to is in the map |
| Session.DotDotProfileIsDefault | src/session.c:22-23 | the name goes into the path unchecked: with HOME set, the profile `../session` has a path different from the default one, yet both name the same file |
| Session.DotSlashProfileIsSame | src/session.c:22-23 | the profiles `./<name>` and `<name>` have different paths but name the same file |
| Session.WindowJsonKeys | src/session.c:55-70 | each saved window is an object of the ten scalar members and `cmd`, in that order |
| Session.SessionJsonShape | src/session.c:51-76 | `count` equals the list length; `windows` has one object per window, in list order; each object's `cmd` holds exactly the stored arguments, in order |
| Session.BuildSessionJson | src/session.c:48-76 | the building loops produce the tree specified by SessionJson |
| Session.SaveSession | src/session.c:45-98 | returns 0 iff printing succeeded and the file opened, and -1 otherwise; on 0 with a complete write the profile's file holds the list's tree, on 0 with a short write it holds a truncated file that does not parse; other files are unchanged; on -1 nothing changes |
| Session.NonStringTitleDereferencesNull | src/session.c:152 | a window object whose title is a number makes the loader copy from a NULL string |
| Session.StringField | src/session.c:152-153 | the corrected text member: at most `limit` chars |
| Session.StringFieldAgrees | src/session.c:152-153 | the corrected member equals the source wherever the source is defined, and is empty where it dereferences NULL |
| Session.LoadedSession | src/session.c:100-178 | every loaded record fits the C struct's buffers |
| Session.LoadWindow | src/session.c:136-173 | filling a zeroed record member by member yields WindowFromJson |
| Session.LoadSession | src/session.c:100-178 | NULL when the file is absent or does not parse; otherwise the loop yields the records of the stored window objects |
| Session.LoadBounds | src/session.c:132-135 | the loaded list has min(array length, 256) records; the stored `count` is not read; window ids come back 0 |
| Session.LoadDefaults | src/session.c:129-171 | every missing member leaves its field 0 or empty; an empty object loads as the zeroed record |
| Session.LoadQuirk | src/session.c:162-171 | a `cmd` array longer than 64 stores 64 arguments but sets `cmd_argc` to the full array length |
| Session.WindowRoundTrip | src/session.c:55-171 | loading a saved window gives it back with window id 0 |
| Session.SaveLoadRoundTrip | src/session.c:51-174 | loading a saved list of at most 256 in-bounds records gives it back, field by field, with window ids 0 |
| Session.SaveThenLoad | src/session.c:84-108 | after a save, the profile's file exists and loads back as the saved list without ids |
| Session.SaveKeepsOtherProfiles | src/session.c:20-24 | saving one named profile does not change what another named profile loads, for names without `/` whose paths fit the buffer |
| Session.SaveKeepsDefaultProfile | src/session.c:20-24 | saving a named profile does not change what the default profile loads, and saving the default does not change what a named profile loads, for a name without `/` while both paths fit the buffer |
| Session.SaveDotDotReplacesDefault | src/session.c:20-24 | with HOME set, saving the profile `../session` replaces what the default profile loads with the saved list |
| Session.CaptureRoundTrip | src/session.c:51-171 | every captured list is within bounds and survives a save and a load, except for window ids |
| Restore.FoundWindowIsFirstMatch | src/restore.c:19-51 | the lookup answers the first client in list order whose name contains the title; nameless clients never match; no match, a missing atom or a failed fetch give None |
| Restore.FindWindowByTitle | src/restore.c:19-51 | the loop with `break` computes the lookup FoundWindow specifies |
| Restore.WaitIsFirstSuccess | src/restore.c:53-61 | at most `2*timeout` lookups; the answer is the first lookup that finds a window; None only after every lookup found nothing |
| Restore.WaitForWindow | src/restore.c:53-61 | the polling loop computes the wait WaitFrom specifies |
| Restore.RepositionWindow | src/restore.c:63-70 | -1 and nothing sent when no client matches; otherwise 0 and one move/resize of the first match, with width and height read as unsigned |
| Restore.LaunchApp | src/restore.c:72-88 | nothing when `cmd_argc` is 0, otherwise one launch of exactly the stored arguments |
| Restore.LaunchesInOrder | src/restore.c:109-114 | the launch loop gives one launch per record with a command and nothing else; record j's launch sits at the position that counts the earlier records with a command |
| Restore.LaunchableIncreasing | src/restore.c:109-114 | a later record with a command launches strictly later: launches keep stored order |
| Restore.MatchKey | src/restore.c:125-127 | the key is the title's first 63 chars, the whole title when it is shorter |
| Restore.RepositionAnswers | src/restore.c:129-154 | after one wait, the action sent answers its record (see MatchAnswers) |
| Restore.MatchCounts | src/restore.c:119-157 | the match loop sends exactly one action per titled record and none for an untitled one; it never launches; it makes at most 10 lookups per titled record |
| Restore.MatchAnswers | src/restore.c:119-157 | the action for each titled record is one of three, never two. It is a warning with its 63-char key when the ten lookups of that record's own wait found nothing. Or, for a window one of those ten lookups found by that key, it is the add (1) `_NET_WM_STATE` message naming MAXIMIZED_VERT and MAXIMIZED_HORZ when the record is maximized, and otherwise a move/resize to the stored x, y, width and height |
| Restore.LaunchesBeforeMatching | src/restore.c:109-119 | in the restore trace, no launch follows any other action |
| Restore.LaunchAll | src/restore.c:109-114 | the launch loop emits the launch phase |
| Restore.AnswerWindow | src/restore.c:125-154 | one titled record's turn waits by its key and sends what Reposition specifies |
| Restore.MatchAll | src/restore.c:119-157 | the match loop emits the match phase, with lookups numbered on from the first |
| Restore.RestoreSession | src/restore.c:90-164 | -1 and nothing done when the load fails; 0 and nothing done for an empty list, without opening the display; -1 when the display cannot be opened; otherwise 0 whatever the per-window outcomes, after every launch followed by the match loop |

## Left out

- X11 calls (`XInternAtom`, `XGetWindowProperty`, `XFetchName`, `XGetGeometry`, `XTranslateCoordinates`, `XSendEvent`, `XMoveResizeWindow`, `XSync`, `XFlush`, `XOpenDisplay`, `XCloseDisplay`):
  - their answers are inputs;
  - their requests are trace actions;
  - geometry is an opaque root-relative query result;
  - a property the window lacks is None.
- A `_NET_WM_PID` or `_NET_WM_DESKTOP` property of the wrong type or with no items. `XGetWindowProperty` then succeeds with a one-byte buffer, and `*(unsigned long *)prop` at src/capture.c:32 and 98 reads past it, so the source gets an indeterminate pid or desktop. The model gives such a window the missing-property default (-1 and 0). For `_NET_WM_STATE` and the client list the item count is 0 in that case, so None is exact there.
- X protocol errors. src/ installs no `XSetErrorHandler`, so a `BadAtom` (`XInternAtom(…, True)` returning `None` at src/capture.c:54 and then passed to `XGetWindowProperty`) or a `BadWindow` (a client gone between the list fetch and its queries, src/capture.c:26, 176, 183-185) ends the process under Xlib's default handler. The model instead reads such a failed query as an absent property and goes on.
- Restore.RestoreSession: the same errors in restore are not modelled. `XFetchName` on a client that closed after the list fetch (src/restore.c:40) and `XMoveResizeWindow` on a matched window that is already gone (src/restore.c:67, 152-153) raise `BadWindow`. A zero width or height, which a loaded record has when the member is missing, makes `XMoveResizeWindow` raise `BadValue`. The default handler then exits the process with status 1, where the model returns 0.
- `fork`, `setsid` and `execvp` in `launch_app`. A `Launch` action stands for the attempt. A failed fork or exec is not modelled.
- `usleep`, `sleep` and `XSync` in restore. Only the number of lookups is kept.
- Printed and logged messages. A `Warn` action stands for the "could not find window" line.
- The JSON text. `cJSON_PrintUnformatted` and `cJSON_Parse` are taken as exact inverses on the tree, and a file that does not parse is None. cJSON itself is not part of this model.
- cJSON's case-insensitive member-name comparison in `cJSON_GetObjectItem`. The model compares names exactly.
- Floating point. JSON numbers are integers, and `(int)valuedouble` is the identity on them.
- The filesystem and the environment:
  - `getenv("HOME")` and the files are parameters;
  - `ensure_dirs_exist` (src/session.c:27-37, `mkdir`) is not modelled;
  - `session_file_exists` is "the resolved file is in the map";
  - `..` is resolved by name, as the kernel does when every directory on the way exists and none is a symbolic link. `save_session` creates both session directories first only when HOME is set (src/session.c:46, 28-36); with HOME unset nothing creates `/tmp/.sessionsnap/sessions`. When the sessions directory is missing (HOME unset, or the directory removed), a profile such as `../session` fails to open in the source (save and load return -1, `session_file_exists` returns 0), while the model reaches the file above it. Session.UpOneProfile, Session.DotDotProfileIsDefault and Session.SaveDotDotReplacesDefault therefore require HOME to be set; Session.LoadSession and Session.SessionFileExists do not model the missing-directory failure.
- Session.StringField: strings are taken to be NUL-free, as C strings are. cJSON decodes `\u0000` to a NUL, and the `strncpy` calls at src/session.c:152, 153 and 167 stop there, so the source loads only the part before an embedded NUL; the model keeps the whole string (Session.ArgOf likewise). The round-trip lemmas therefore also cover strings with a NUL, which the C struct cannot hold.
- Session.SaveKeepsOtherProfiles: only for profile names without `/`. A name with `/` reaches other files through `..` and `.` components, as Session.DotDotProfileIsDefault and Session.DotSlashProfileIsSame show.
- Session.SaveKeepsDefaultProfile: only for a profile name without `/`, for the same reason, and only while both paths fit the buffer (Session.LongHomeMergesProfiles shows a long HOME merging them).
- Allocation failures: `calloc` in `capture_windows` (src/capture.c:143-144), and `malloc`/`calloc` in `load_session` (src/session.c:114-115, 129-130).
- Restore.RestoreSession: its precondition says that every loaded record has `cmd_argc` <= 64.
  - This is the loader quirk's consequence. A larger count would write past `args[MAX_CMD_ARGS + 1]` at src/restore.c:77-81.
  - Files that `save_session` wrote always meet it.
- The wait's `timeout_sec * 2` is computed without `int` overflow. Restore only passes 5.
- Window ids are unbounded naturals. 0 plays the role of X's `None`, as in the source, so a matching client with id 0 would count as not found.
- src/monitor.c, src/main.c, src/gui.c, include/gui.h, include/restore.h and include/monitor.h are not part of this model. They hold the signal-driven autosave loop, the command-line dispatch and the GTK dialog.

## Findings

| source | as written | input that shows it | evidently intended | confidence | as-written member | corrected member |
|---|---|---|---|---|---|---|
| src/session.c:152-153 | `strncpy(w->title, title->valuestring, …)` runs whenever the member exists; for a non-string member `valuestring` is NULL | a session file whose window object has `"title": 7` (or a non-string `exe_path`) | copy only string members, leaving the field empty otherwise, as the `cmd` loop at src/session.c:166 does | not executed | Session.NonStringTitleDereferencesNull | Session.StringField |

=== FILE: capture.dfy ===
/**
 * The window enumerator: reads the EWMH client list of the root window and
 * builds a capped, filtered list of window records.
 *
 * The X server is given as the client list it would report (None when the
 * `_NET_CLIENT_LIST` atom is missing or the property cannot be fetched),
 * each client carrying the answers to the per-window queries. The Linux
 * process table is given as a map from pid to what `/proc/<pid>/cmdline`
 * and `/proc/<pid>/exe` yield.
 */
module Capture {
  import opened Wrappers
  import opened CStrings
  import opened Snapshot

  const NET_WM_STATE_MAXIMIZED_VERT: string := "_NET_WM_STATE_MAXIMIZED_VERT"
  const NET_WM_STATE_MAXIMIZED_HORZ: string := "_NET_WM_STATE_MAXIMIZED_HORZ"
  const NET_WM_STATE_HIDDEN: string := "_NET_WM_STATE_HIDDEN"

  /** `_NET_WM_STATE` is fetched with a length of 1024 32-bit items. */
  const STATE_READ_LIMIT: nat := 1024
  /** The cmdline buffer holds MAX_CMD_ARGS * MAX_ARG_LEN chars, one kept for the NUL. */
  const CMDLINE_READ_LIMIT: nat := MAX_CMD_ARGS * MAX_ARG_LEN - 1
  const NUL: char := '\0'

  /** Commands whose first argument contains one of these is not a user application. */
  const SYSTEM_PROCS: seq<string> := [
    "systemd", "dbus", "Xorg", "xfce4-session", "xfwm4",
    "xfdesktop", "xfce4-panel", "pulseaudio", "pipewire",
    "bash", "sh", "zsh", "fish"]

  /** Root-relative geometry, as the geometry query and coordinate translation report it. */
  datatype Geometry = Geometry(x: int, y: int, width: int, height: int)

  /**
   * One top-level client as the X server would describe it: the value of
   * `_NET_WM_PID` (a CARDINAL), the window name, its geometry, the atoms of
   * `_NET_WM_STATE` by name, and the value of `_NET_WM_DESKTOP`. None stands
   * for a property the window does not have or whose value has the wrong
   * format. A query that raises an X protocol error (an atom the server
   * does not know, a window already gone) is not modelled: with no error
   * handler installed, Xlib's default handler ends the process.
   */
  datatype Client = Client(
    id: nat,
    pidHint: Option<nat>,
    name: Option<string>,
    geometry: Geometry,
    stateHint: Option<seq<string>>,
    desktopHint: Option<nat>)

  /** What `/proc/<pid>/cmdline` holds and where `/proc/<pid>/exe` points; None when unreadable. */
  datatype ProcEntry = ProcEntry(cmdline: Option<seq<char>>, exeLink: Option<string>)

  type ProcTable = map<int, ProcEntry>

  datatype StateFlags = StateFlags(isMaximized: int, isMinimized: int)

  datatype CmdInfo = CmdInfo(cmd: seq<string>, exePath: string)

  // ---------------------------------------------------------------------
  // Per-window queries

  /** The owning pid: -1 when the hint is missing, else the CARDINAL read as a C int. */
  function WindowPid(c: Client): (pid: int)
    ensures c.pidHint.None? ==> pid == -1
    ensures c.pidHint.Some? ==> pid == ToCInt(c.pidHint.value)
    ensures c.pidHint.Some? && c.pidHint.value < TWO_31 ==> pid == c.pidHint.value
    // values from 2^31 up wrap to negatives
    ensures c.pidHint.Some? && TWO_31 <= c.pidHint.value < TWO_32 ==> pid == c.pidHint.value - TWO_32
  {
    if c.pidHint.None? then -1 else ToCInt(c.pidHint.value)
  }

  /** The workspace: 0 when the hint is missing, else the CARDINAL read as a C int. */
  function WindowDesktop(c: Client): (d: int)
    ensures c.desktopHint.None? ==> d == 0
    ensures c.desktopHint.Some? ==> d == ToCInt(c.desktopHint.value)
    ensures c.desktopHint.Some? && c.desktopHint.value < TWO_31 ==> d == c.desktopHint.value
    ensures c.desktopHint.Some? && TWO_31 <= c.desktopHint.value < TWO_32 ==> d == c.desktopHint.value - TWO_32
    // the EWMH "all desktops" value 0xFFFFFFFF reads as -1
    ensures c.desktopHint == Some(0xFFFF_FFFF) ==> d == -1
  {
    if c.desktopHint.None? then 0 else ToCInt(c.desktopHint.value)
  }

  /** The state atoms the fetch returns: none when unreadable, at most 1024. */
  function StateAtoms(hint: Option<seq<string>>): seq<string> {
    if hint.None? then [] else Take(hint.value, STATE_READ_LIMIT)
  }

  /** Maximized needs both maximize atoms; minimized is the hidden atom. */
  function WindowState(hint: Option<seq<string>>): StateFlags {
    var atoms := StateAtoms(hint);
    StateFlags(
      if NET_WM_STATE_MAXIMIZED_VERT in atoms && NET_WM_STATE_MAXIMIZED_HORZ in atoms then 1 else 0,
      if NET_WM_STATE_HIDDEN in atoms then 1 else 0)
  }

  /** Scans the state atoms once, setting one flag per atom of interest. */
  method GetWindowState(hint: Option<seq<string>>) returns (flags: StateFlags)
    ensures flags == WindowState(hint)
    ensures flags.isMaximized == 1 <==>
      hint.Some? && NET_WM_STATE_MAXIMIZED_VERT in StateAtoms(hint) && NET_WM_STATE_MAXIMIZED_HORZ in StateAtoms(hint)
    ensures flags.isMinimized == 1 <==> hint.Some? && NET_WM_STATE_HIDDEN in StateAtoms(hint)
    ensures flags.isMaximized in {0, 1} && flags.isMinimized in {0, 1}
    ensures hint.None? ==> flags == StateFlags(0, 0)
  {
    var isMaximized, isMinimized := 0, 0;
    if hint.Some? {
      var states := StateAtoms(hint);
      var hasMaxVert, hasMaxHorz := false, false;
      var i := 0;
      while i < |states|
        invariant 0 <= i <= |states|
        invariant hasMaxVert <==> NET_WM_STATE_MAXIMIZED_VERT in states[..i]
        invariant hasMaxHorz <==> NET_WM_STATE_MAXIMIZED_HORZ in states[..i]
        invariant isMinimized == (if NET_WM_STATE_HIDDEN in states[..i] then 1 else 0)
      {
        assert states[..i + 1] == states[..i] + [states[i]];
        if states[i] == NET_WM_STATE_MAXIMIZED_VERT { hasMaxVert := true; }
        if states[i] == NET_WM_STATE_MAXIMIZED_HORZ { hasMaxHorz := true; }
        if states[i] == NET_WM_STATE_HIDDEN { isMinimized := 1; }
        i := i + 1;
      }
      assert states[..i] == states;
      if hasMaxVert && hasMaxHorz { isMaximized := 1; }
    }
    flags := StateFlags(isMaximized, isMinimized);
  }

  // ---------------------------------------------------------------------
  // The /proc/<pid>/cmdline splitter

  /** The index of the first NUL at or after i, or |buf|: i + strlen(buf + i) over a NUL-terminated buffer. */
  function SegEnd(buf: seq<char>, i: nat): (e: nat)
    requires i <= |buf|
    ensures i <= e <= |buf|
    decreases |buf| - i
  {
    if i == |buf| || buf[i] == NUL then i else SegEnd(buf, i + 1)
  }

  /** The consecutive NUL-terminated segments of buf from index i on; a last one may lack its NUL. */
  function SegmentsFrom(buf: seq<char>, i: nat): seq<string>
    decreases |buf| - i
  {
    if i >= |buf| then [] else [buf[i..SegEnd(buf, i)]] + SegmentsFrom(buf, SegEnd(buf, i) + 1)
  }

  function Segments(buf: seq<char>): seq<string> {
    SegmentsFrom(buf, 0)
  }

  /** Every argument cut to MAX_ARG_LEN - 1 characters. */
  function TruncateArgs(argv: seq<string>): (r: seq<string>)
    ensures |r| == |argv|
  {
    if argv == [] then [] else [Truncate(argv[0], MAX_ARG_LEN - 1)] + TruncateArgs(argv[1..])
  }

  lemma {:induction false} TruncateArgsAt(argv: seq<string>, k: nat)
    requires k < |argv|
    ensures TruncateArgs(argv)[k] == Truncate(argv[k], MAX_ARG_LEN - 1)
  {
    if k > 0 {
      TruncateArgsAt(argv[1..], k - 1);
    }
  }

  lemma {:induction false} TruncateArgsSnoc(argv: seq<string>, a: string)
    ensures TruncateArgs(argv + [a]) == TruncateArgs(argv) + [Truncate(a, MAX_ARG_LEN - 1)]
  {
    if argv != [] {
      assert (argv + [a])[1..] == argv[1..] + [a];
      TruncateArgsSnoc(argv[1..], a);
    }
  }

  /** The argument vector the cmdline loop stores: at most 64 segments, each cut to 511 characters. */
  function CmdArgs(buf: seq<char>): (args: seq<string>)
    ensures |args| <= MAX_CMD_ARGS
  {
    TruncateArgs(Take(Segments(buf), MAX_CMD_ARGS))
  }

  /** Every stored argument is shorter than MAX_ARG_LEN. */
  lemma CmdArgsBounded(buf: seq<char>)
    ensures forall a <- CmdArgs(buf) :: |a| < MAX_ARG_LEN
  {
    var segs := Take(Segments(buf), MAX_CMD_ARGS);
    forall k | 0 <= k < |CmdArgs(buf)|
      ensures |CmdArgs(buf)[k]| < MAX_ARG_LEN
    {
      TruncateArgsAt(segs, k);
    }
  }

  /** Walks the buffer segment by segment, as the cmdline loop does with its index and count. */
  method SplitCmdline(buf: seq<char>) returns (args: seq<string>)
    ensures args == CmdArgs(buf)
  {
    ghost var done: seq<string> := [];
    args := [];
    var i: nat := 0;
    while i < |buf| && |args| < MAX_CMD_ARGS
      invariant i <= |buf| + 1
      invariant done + SegmentsFrom(buf, i) == Segments(buf)
      invariant args == TruncateArgs(done)
      invariant |done| <= MAX_CMD_ARGS
      decreases |buf| + 1 - i
    {
      var e := SegEnd(buf, i);
      ghost var rest := SegmentsFrom(buf, e + 1);
      assert SegmentsFrom(buf, i) == [buf[i..e]] + rest;
      assert done + ([buf[i..e]] + rest) == (done + [buf[i..e]]) + rest;
      TruncateArgsSnoc(done, buf[i..e]);
      args := args + [Truncate(buf[i..e], MAX_ARG_LEN - 1)];
      done := done + [buf[i..e]];
      i := e + 1;
    }
    SplitDone(buf, i, done);
  }

  /** When the loop stops, the segments seen are the first MAX_CMD_ARGS of the buffer. */
  lemma SplitDone(buf: seq<char>, i: nat, done: seq<string>)
    requires |done| <= MAX_CMD_ARGS
    requires done + SegmentsFrom(buf, i) == Segments(buf)
    requires i >= |buf| || |done| == MAX_CMD_ARGS
    ensures done == Take(Segments(buf), MAX_CMD_ARGS)
  {
    if i >= |buf| {
      assert done == Segments(buf);
    }
  }

  /** The Linux cmdline format: every argument followed by a NUL. */
  function CmdlineOf(argv: seq<string>): seq<char> {
    if argv == [] then [] else argv[0] + [NUL] + CmdlineOf(argv[1..])
  }

  /** strlen stops at the first NUL. */
  lemma {:induction false} SegEndAt(buf: seq<char>, i: nat, j: nat)
    requires i <= j < |buf| && buf[j] == NUL
    requires forall k :: i <= k < j ==> buf[k] != NUL
    ensures SegEnd(buf, i) == j
    decreases j - i
  {
    if i < j {
      SegEndAt(buf, i + 1, j);
    }
  }

  /** Splitting inverts the cmdline format: the segments after any prefix are the arguments, in order. */
  lemma {:induction false} SegmentsFromCmdline(pre: seq<char>, argv: seq<string>)
    requires forall a <- argv :: NUL !in a
    ensures SegmentsFrom(pre + CmdlineOf(argv), |pre|) == argv
    decreases |argv|
  {
    var buf := pre + CmdlineOf(argv);
    if argv != [] {
      var a := argv[0];
      assert a in argv;
      var pre' := pre + a + [NUL];
      assert buf == pre' + CmdlineOf(argv[1..]);
      forall k | |pre| <= k < |pre| + |a|
        ensures buf[k] != NUL
      {
        assert buf[k] == a[k - |pre|];
      }
      SegEndAt(buf, |pre|, |pre| + |a|);
      assert buf[|pre|..|pre| + |a|] == a;
      SegmentsFromCmdline(pre', argv[1..]);
    }
  }

  lemma SegmentsOfCmdline(argv: seq<string>)
    requires forall a <- argv :: NUL !in a
    ensures Segments(CmdlineOf(argv)) == argv
  {
    SegmentsFromCmdline([], argv);
    assert [] + CmdlineOf(argv) == CmdlineOf(argv);
  }

  // ---------------------------------------------------------------------
  // Process command line and executable path

  /**
   * The command read from /proc: nothing when the cmdline is unreadable
   * (the executable path is then not looked at either), else the split of
   * at most CMDLINE_READ_LIMIT bytes and the link cut to 511 characters.
   */
  function ProcessCmd(procs: ProcTable, pid: int): (pc: CmdInfo)
    ensures |pc.cmd| <= MAX_CMD_ARGS && |pc.exePath| < EXE_PATH_SIZE
    ensures forall a <- pc.cmd :: |a| < MAX_ARG_LEN
    ensures (pid !in procs || procs[pid].cmdline.None?) ==> pc == CmdInfo([], "")
  {
    if pid !in procs || procs[pid].cmdline.None? then CmdInfo([], "")
    else
      var e := procs[pid];
      CmdArgsBounded(Take(e.cmdline.value, CMDLINE_READ_LIMIT));
      CmdInfo(
        CmdArgs(Take(e.cmdline.value, CMDLINE_READ_LIMIT)),
        if e.exeLink.None? then "" else Truncate(e.exeLink.value, EXE_PATH_SIZE - 1))
  }

  method GetProcessCmd(procs: ProcTable, pid: int) returns (pc: CmdInfo)
    ensures pc == ProcessCmd(procs, pid)
  {
    if pid !in procs || procs[pid].cmdline.None? {
      return CmdInfo([], "");
    }
    var e := procs[pid];
    var buf := Take(e.cmdline.value, CMDLINE_READ_LIMIT);
    var cmd := SplitCmdline(buf);
    var exePath := if e.exeLink.None? then "" else Truncate(e.exeLink.value, EXE_PATH_SIZE - 1);
    pc := CmdInfo(cmd, exePath);
  }

  /**
   * A process whose cmdline fits the buffer yields its first 64 arguments
   * in order, each cut to 511 characters.
   */
  lemma ProcessCmdOfArgv(procs: ProcTable, pid: int, argv: seq<string>)
    requires pid in procs && procs[pid].cmdline == Some(CmdlineOf(argv))
    requires forall a <- argv :: NUL !in a
    requires |CmdlineOf(argv)| <= CMDLINE_READ_LIMIT
    ensures ProcessCmd(procs, pid).cmd == TruncateArgs(Take(argv, MAX_CMD_ARGS))
  {
    SegmentsOfCmdline(argv);
    assert Take(CmdlineOf(argv), CMDLINE_READ_LIMIT) == CmdlineOf(argv);
  }

  // ---------------------------------------------------------------------
  // Deny-list

  /** Some deny-listed name from index k on occurs in cmd. */
  predicate DeniedFrom(cmd: string, k: nat)
    decreases |SYSTEM_PROCS| - k
  {
    k < |SYSTEM_PROCS| && (Contains(cmd, SYSTEM_PROCS[k]) || DeniedFrom(cmd, k + 1))
  }

  /** Some deny-listed name occurs as a substring of cmd. */
  predicate Denied(cmd: string) {
    DeniedFrom(cmd, 0)
  }

  lemma {:induction false} DeniedFromIff(cmd: string, k: nat)
    ensures DeniedFrom(cmd, k) <==> exists j :: k <= j < |SYSTEM_PROCS| && Contains(cmd, SYSTEM_PROCS[j])
    decreases |SYSTEM_PROCS| - k
  {
    if k < |SYSTEM_PROCS| {
      DeniedFromIff(cmd, k + 1);
    }
  }

  /** A command is denied exactly when one of the deny-listed names occurs in it. */
  lemma DeniedIff(cmd: string)
    ensures Denied(cmd) <==> exists k :: 0 <= k < |SYSTEM_PROCS| && Contains(cmd, SYSTEM_PROCS[k])
  {
    DeniedFromIff(cmd, 0);
  }

  /** Tries each deny-listed name in turn and stops at the first that occurs in cmd. */
  method IsSystemProcess(cmd: string) returns (r: bool)
    ensures r <==> Denied(cmd)
  {
    var i := 0;
    while i < |SYSTEM_PROCS|
      invariant 0 <= i <= |SYSTEM_PROCS|
      invariant Denied(cmd) == DeniedFrom(cmd, i)
    {
      if Contains(cmd, SYSTEM_PROCS[i]) {
        return true;
      }
      i := i + 1;
    }
    return false;
  }

  /** Any command containing "sh" is denied, so "/usr/bin/ssh" is as well as "/bin/bash". */
  lemma ContainsShIsDenied(cmd: string)
    requires Contains(cmd, "sh")
    ensures Denied(cmd)
    ensures Denied("/usr/bin/ssh")
  {
    assert SYSTEM_PROCS[10] == "sh";
    DeniedIff(cmd);
    DeniedIff("/usr/bin/ssh");
    ContainsIff("/usr/bin/ssh", "sh");
    assert OccursAt("/usr/bin/ssh", "sh", 10);
  }

  // ---------------------------------------------------------------------
  // Enumeration

  /** The record built for one client before the filter is applied. */
  function ClientRecord(c: Client, procs: ProcTable): WindowInfo {
    var pid := WindowPid(c);
    var flags := WindowState(c.stateHint);
    var pc := ProcessCmd(procs, pid);
    WindowInfo(
      c.id, pid,
      c.geometry.x, c.geometry.y, c.geometry.width, c.geometry.height,
      WindowDesktop(c), flags.isMaximized, flags.isMinimized,
      if c.name.None? then "" else Truncate(c.name.value, TITLE_SIZE - 1),
      pc.cmd, |pc.cmd|, pc.exePath)
  }

  /**
   * The record keeps the window id and pid, falls back to the zeroed
   * defaults for every property that cannot be read, and fits the C struct
   * with its argument count equal to the arguments stored.
   */
  lemma ClientRecordDefaults(c: Client, procs: ProcTable)
    ensures var w := ClientRecord(c, procs);
      && w.windowId == c.id && w.pid == WindowPid(c)
      && (c.name.None? ==> w.title == "")
      && (c.name.Some? ==> w.title == Truncate(c.name.value, TITLE_SIZE - 1))
      && (c.desktopHint.None? ==> w.desktop == 0)
      && (c.stateHint.None? ==> w.isMaximized == 0 && w.isMinimized == 0)
      && ((w.pid !in procs || procs[w.pid].cmdline.None?) ==> w.cmdArgc == 0 && w.exePath == "")
      && w.cmdArgc == |w.cmd| && ArgcStored(w)
  {
  }

  /** A record is kept when it has a pid, a command, and a first argument off the deny-list. */
  predicate Retained(w: WindowInfo) {
    w.pid > 0 && w.cmdArgc > 0 && |w.cmd| > 0 && !Denied(w.cmd[0])
  }

  /** The record of every client, in client-list order. */
  function Records(cs: seq<Client>, procs: ProcTable): (ws: seq<WindowInfo>)
    ensures |ws| == |cs|
  {
    if cs == [] then [] else [ClientRecord(cs[0], procs)] + Records(cs[1..], procs)
  }

  lemma {:induction false} RecordsAt(cs: seq<Client>, procs: ProcTable, k: nat)
    requires k < |cs|
    ensures Records(cs, procs)[k] == ClientRecord(cs[k], procs)
  {
    if k > 0 {
      RecordsAt(cs[1..], procs, k - 1);
    }
  }

  /** The records from index i on that pass the filter, in their order. */
  function KeepFrom(ws: seq<WindowInfo>, i: nat): seq<WindowInfo>
    decreases |ws| - i
  {
    if i >= |ws| then [] else (if Retained(ws[i]) then [ws[i]] else []) + KeepFrom(ws, i + 1)
  }

  /** The records of all clients that pass the filter, in client-list order. */
  function Eligible(cs: seq<Client>, procs: ProcTable): seq<WindowInfo> {
    KeepFrom(Records(cs, procs), 0)
  }

  /** The capture: the first MAX_WINDOWS eligible records; nothing without a client list. */
  function Captured(clientList: Option<seq<Client>>, procs: ProcTable): seq<WindowInfo> {
    if clientList.None? then [] else Take(Eligible(clientList.value, procs), MAX_WINDOWS)
  }

  /**
   * The body of the enumeration loop for one client: the pid check comes
   * first and skips the other queries; the command is then checked.
   */
  method ClientWindow(c: Client, procs: ProcTable) returns (keep: bool, info: WindowInfo)
    ensures keep <==> Retained(ClientRecord(c, procs))
    ensures keep ==> info == ClientRecord(c, procs)
  {
    info := ZeroWindow;
    var pid := WindowPid(c);
    if pid <= 0 {
      return false, info;
    }
    var title := if c.name.None? then "" else Truncate(c.name.value, TITLE_SIZE - 1);
    var flags := GetWindowState(c.stateHint);
    var desktop := WindowDesktop(c);
    var pc := GetProcessCmd(procs, pid);
    info := WindowInfo(
      c.id, pid,
      c.geometry.x, c.geometry.y, c.geometry.width, c.geometry.height,
      desktop, flags.isMaximized, flags.isMinimized,
      title, pc.cmd, |pc.cmd|, pc.exePath);
    assert info == ClientRecord(c, procs);
    if |pc.cmd| > 0 {
      var system := IsSystemProcess(pc.cmd[0]);
      if system {
        return false, info;
      }
    }
    if |pc.cmd| == 0 {
      return false, info;
    }
    keep := true;
  }

  /** Walks the client list, appending each retained record until the list is full. */
  method CaptureWindows(clientList: Option<seq<Client>>, procs: ProcTable) returns (list: seq<WindowInfo>)
    ensures list == Captured(clientList, procs)
    ensures |list| <= MAX_WINDOWS
    ensures clientList.None? ==> list == []
  {
    list := [];
    if clientList.None? {
      return;
    }
    var windows := clientList.value;
    ghost var recs := Records(windows, procs);
    var i := 0;
    while i < |windows| && |list| < MAX_WINDOWS
      invariant 0 <= i <= |windows|
      invariant |list| <= MAX_WINDOWS
      invariant list + KeepFrom(recs, i) == KeepFrom(recs, 0)
    {
      var keep, info := ClientWindow(windows[i], procs);
      RecordsAt(windows, procs, i);
      KeepFromStep(recs, i, list);
      if keep {
        list := list + [info];
      }
      i := i + 1;
    }
    CapturedExit(recs, list, i);
  }

  /** One step of the enumeration loop: the record at i is appended when it is retained. */
  lemma KeepFromStep(ws: seq<WindowInfo>, i: nat, list: seq<WindowInfo>)
    requires i < |ws|
    ensures Retained(ws[i]) ==> (list + [ws[i]]) + KeepFrom(ws, i + 1) == list + KeepFrom(ws, i)
    ensures !Retained(ws[i]) ==> list + KeepFrom(ws, i + 1) == list + KeepFrom(ws, i)
  {
    if Retained(ws[i]) {
      assert (list + [ws[i]]) + KeepFrom(ws, i + 1) == list + ([ws[i]] + KeepFrom(ws, i + 1));
    } else {
      assert KeepFrom(ws, i) == [] + KeepFrom(ws, i + 1);
    }
  }

  /** When the loop stops, the list holds the first MAX_WINDOWS retained records. */
  lemma CapturedExit(recs: seq<WindowInfo>, list: seq<WindowInfo>, i: nat)
    requires i <= |recs| && |list| <= MAX_WINDOWS
    requires list + KeepFrom(recs, i) == KeepFrom(recs, 0)
    requires i == |recs| || |list| == MAX_WINDOWS
    ensures list == Take(KeepFrom(recs, 0), MAX_WINDOWS)
  {
    if i < |recs| {
      assert KeepFrom(recs, 0)[..MAX_WINDOWS] == list;
    }
  }

  // ---------------------------------------------------------------------
  // Properties of the capture

  /** The positions from i on of the records that pass the filter, in increasing order. */
  function PositionsFrom(ws: seq<WindowInfo>, i: nat): seq<nat>
    decreases |ws| - i
  {
    if i >= |ws| then [] else (if Retained(ws[i]) then [i] else []) + PositionsFrom(ws, i + 1)
  }

  /** The k-th kept record is the record at the k-th retained position. */
  lemma {:induction false} KeepFromAt(ws: seq<WindowInfo>, i: nat)
    ensures |KeepFrom(ws, i)| == |PositionsFrom(ws, i)|
    ensures forall k :: 0 <= k < |KeepFrom(ws, i)| ==>
      PositionsFrom(ws, i)[k] < |ws| && KeepFrom(ws, i)[k] == ws[PositionsFrom(ws, i)[k]]
    decreases |ws| - i
  {
    if i < |ws| {
      KeepFromAt(ws, i + 1);
    }
  }

  /** The retained positions are increasing, start at i, and each holds a retained record. */
  lemma {:induction false} PositionsSorted(ws: seq<WindowInfo>, i: nat)
    ensures forall k :: 0 <= k < |PositionsFrom(ws, i)| ==>
      i <= PositionsFrom(ws, i)[k] < |ws| && Retained(ws[PositionsFrom(ws, i)[k]])
    ensures forall k, l :: 0 <= k < l < |PositionsFrom(ws, i)| ==> PositionsFrom(ws, i)[k] < PositionsFrom(ws, i)[l]
    decreases |ws| - i
  {
    if i < |ws| {
      PositionsSorted(ws, i + 1);
    }
  }

  /** No retained record from i on is skipped. */
  lemma {:induction false} PositionsComplete(ws: seq<WindowInfo>, i: nat)
    ensures forall j :: i <= j < |ws| && Retained(ws[j]) ==> j in PositionsFrom(ws, i)
    decreases |ws| - i
  {
    if i < |ws| {
      PositionsComplete(ws, i + 1);
    }
  }

  /** The client positions of the captured records. */
  function CapturedPositions(cs: seq<Client>, procs: ProcTable): seq<nat> {
    Take(PositionsFrom(Records(cs, procs), 0), MAX_WINDOWS)
  }

  /** The k-th captured record is the record of the client at the k-th captured position. */
  lemma CapturedAt(cs: seq<Client>, procs: ProcTable)
    ensures |CapturedPositions(cs, procs)| == |Captured(Some(cs), procs)| <= MAX_WINDOWS
    ensures forall k :: 0 <= k < |CapturedPositions(cs, procs)| ==>
      CapturedPositions(cs, procs)[k] < |cs|
      && Captured(Some(cs), procs)[k] == ClientRecord(cs[CapturedPositions(cs, procs)[k]], procs)
  {
    KeepFromAt(Records(cs, procs), 0);
    forall k | 0 <= k < |CapturedPositions(cs, procs)|
      ensures Captured(Some(cs), procs)[k] == ClientRecord(cs[CapturedPositions(cs, procs)[k]], procs)
    {
      RecordsAt(cs, procs, CapturedPositions(cs, procs)[k]);
    }
  }

  /** The capture keeps client-list order: the captured positions increase strictly. */
  lemma CapturedInOrder(cs: seq<Client>, procs: ProcTable)
    ensures forall k, l :: 0 <= k < l < |CapturedPositions(cs, procs)| ==>
      CapturedPositions(cs, procs)[k] < CapturedPositions(cs, procs)[l]
  {
    PositionsSorted(Records(cs, procs), 0);
  }

  /**
   * No retained client is skipped: each one is captured unless the list
   * filled up before its position.
   */
  lemma CapturedComplete(cs: seq<Client>, procs: ProcTable)
    ensures var idx := CapturedPositions(cs, procs);
      forall i ::
        (0 <= i < |cs| && Retained(ClientRecord(cs[i], procs)) && (|idx| < MAX_WINDOWS || i <= idx[|idx| - 1]))
        ==> i in idx
  {
    var recs := Records(cs, procs);
    var idx := CapturedPositions(cs, procs);
    TakePositionsComplete(recs);
    forall i | 0 <= i < |cs| && Retained(ClientRecord(cs[i], procs)) && (|idx| < MAX_WINDOWS || i <= idx[|idx| - 1])
      ensures i in idx
    {
      RecordsAt(cs, procs, i);
    }
  }

  /** Cutting the retained positions at MAX_WINDOWS loses only positions after the last one kept. */
  lemma TakePositionsComplete(ws: seq<WindowInfo>)
    ensures var idx := Take(PositionsFrom(ws, 0), MAX_WINDOWS);
      forall i :: (0 <= i < |ws| && Retained(ws[i]) && (|idx| < MAX_WINDOWS || i <= idx[|idx| - 1])) ==> i in idx
  {
    var all := PositionsFrom(ws, 0);
    var idx := Take(all, MAX_WINDOWS);
    PositionsSorted(ws, 0);
    PositionsComplete(ws, 0);
    forall i | 0 <= i < |ws| && Retained(ws[i]) && (|idx| < MAX_WINDOWS || i <= idx[|idx| - 1])
      ensures i in idx
    {
      var m :| 0 <= m < |all| && all[m] == i;
      assert m < |idx|;
      assert idx[m] == i;
    }
  }

  /**
   * Every captured record has pid > 0, a command whose first argument is
   * off the deny-list, and fits the C struct.
   */
  lemma CapturedRetained(cs: seq<Client>, procs: ProcTable)
    ensures forall w <- Captured(Some(cs), procs) :: Retained(w) && ArgcStored(w)
  {
    var recs := Records(cs, procs);
    var all := PositionsFrom(recs, 0);
    KeepFromAt(recs, 0);
    PositionsSorted(recs, 0);
    forall w <- Captured(Some(cs), procs)
      ensures Retained(w) && ArgcStored(w)
    {
      var k :| 0 <= k < |Captured(Some(cs), procs)| && Captured(Some(cs), procs)[k] == w;
      RecordsAt(cs, procs, all[k]);
      assert w == recs[all[k]];
      ClientRecordDefaults(cs[all[k]], procs);
    }
  }

  /** Distinct client windows give distinct captured records: nothing is duplicated. */
  lemma CapturedDistinct(cs: seq<Client>, procs: ProcTable)
    requires forall i, j :: 0 <= i < j < |cs| ==> cs[i].id != cs[j].id
    ensures forall k, l :: 0 <= k < l < |Captured(Some(cs), procs)| ==>
      Captured(Some(cs), procs)[k].windowId != Captured(Some(cs), procs)[l].windowId
  {
    CapturedAt(cs, procs);
    CapturedInOrder(cs, procs);
  }
}

=== FILE: cstrings.dfy ===
/**
 * The few C library behaviours the core relies on, stated on Dafny values:
 * strncpy into a zeroed buffer, strstr, and the conversion of a 32-bit
 * X11 CARDINAL to a C int.
 */
module CStrings {

  const TWO_32: int := 0x1_0000_0000
  const TWO_31: int := 0x8000_0000

  function Min(a: int, b: int): int {
    if a <= b then a else b
  }

  /** The first min(|s|, n) elements of s. */
  function Take<T>(s: seq<T>, n: nat): (r: seq<T>)
    ensures |r| == Min(|s|, n)
    ensures forall k :: 0 <= k < |r| ==> r[k] == s[k]
  {
    if |s| <= n then s else s[..n]
  }

  /** Extending a prefix by one element. */
  lemma PrefixSnoc<T>(s: seq<T>, i: nat)
    requires i < |s|
    ensures s[..i + 1] == s[..i] + [s[i]]
  {
  }

  /**
   * What `strncpy(dst, src, n)` leaves in a zero-filled buffer of n + 1
   * chars: the first n characters of src, the rest stays NUL.
   */
  function Truncate(s: string, n: nat): (r: string)
    ensures |r| <= n
    ensures |s| <= n ==> r == s
    ensures r == s[..|r|]
  {
    Take(s, n)
  }

  /** `needle` occurs in `hay` starting at index i. */
  predicate OccursAt(hay: string, needle: string, i: int) {
    0 <= i && i + |needle| <= |hay| && hay[i..i + |needle|] == needle
  }

  /** Whether needle occurs in hay at index i or later: the scan strstr performs. */
  predicate OccursFrom(hay: string, needle: string, i: nat)
    decreases |hay| - i
  {
    i + |needle| <= |hay| && (hay[i..i + |needle|] == needle || (i < |hay| && OccursFrom(hay, needle, i + 1)))
  }

  /** `strstr(hay, needle) != NULL`. */
  predicate Contains(hay: string, needle: string) {
    OccursFrom(hay, needle, 0)
  }

  /** The scan finds needle exactly when it occurs at some index at or after i. */
  lemma {:induction false} OccursFromIff(hay: string, needle: string, i: nat)
    ensures OccursFrom(hay, needle, i) <==> exists j :: i <= j && OccursAt(hay, needle, j)
    decreases |hay| - i
  {
    if i < |hay| {
      OccursFromIff(hay, needle, i + 1);
    }
    if OccursAt(hay, needle, i) {
      assert OccursFrom(hay, needle, i);
    }
    if exists j :: i + 1 <= j && OccursAt(hay, needle, j) {
      var j :| i + 1 <= j && OccursAt(hay, needle, j);
      assert i < |hay| && OccursFrom(hay, needle, i + 1);
    }
  }

  /** strstr succeeds exactly when needle occurs somewhere in hay. */
  lemma ContainsIff(hay: string, needle: string)
    ensures Contains(hay, needle) <==> exists j :: OccursAt(hay, needle, j)
  {
    OccursFromIff(hay, needle, 0);
    if exists j :: OccursAt(hay, needle, j) {
      var j :| OccursAt(hay, needle, j);
      assert 0 <= j;
    }
  }

  /**
   * The C conversion `(int)v` of a 32-bit unsigned value on a two's
   * complement machine: v modulo 2^32, read as a signed 32-bit integer.
   */
  function ToCInt(v: nat): (r: int)
    ensures -TWO_31 <= r < TWO_31
    ensures (r - v) % TWO_32 == 0
    ensures v < TWO_31 ==> r == v
  {
    var m := v % TWO_32;
    if m < TWO_31 then m else m - TWO_32
  }

  /** Regrouping a concatenation. */
  lemma AppendAssoc<T>(a: seq<T>, b: seq<T>, c: seq<T>)
    ensures (a + b) + c == a + (b + c)
  {
  }

  /**
   * The C conversion `(unsigned int)v` of an int on a two's complement
   * machine: v modulo 2^32.
   */
  function ToCUInt(v: int): (r: nat)
    ensures r < TWO_32 && (r - v) % TWO_32 == 0
    ensures 0 <= v < TWO_32 ==> r == v
    ensures v == -1 ==> r == TWO_32 - 1
  {
    v % TWO_32
  }
}

=== FILE: json.dfy ===
/**
 * The JSON document tree of RFC 8259 as the session store builds and reads
 * it, and the handful of cJSON accessors the loader uses, stated on that
 * tree. A cJSON pointer that may be NULL is an `Option<Json>`.
 */
module Json {
  import opened Wrappers

  datatype Json =
    | JNull
    | JBool(b: bool)
    | JNumber(n: int)
    | JString(s: string)
    | JArray(elems: seq<Json>)
    | JObject(members: seq<Member>)

  datatype Member = Member(key: string, value: Json)

  /** The value of the first member named key, if any. */
  function Lookup(members: seq<Member>, key: string): Option<Json> {
    if members == [] then None
    else if members[0].key == key then Some(members[0].value)
    else Lookup(members[1..], key)
  }

  /** Lookup finds nothing exactly when no member carries the key. */
  lemma {:induction false} LookupAbsent(members: seq<Member>, key: string)
    ensures Lookup(members, key).None? <==> forall i :: 0 <= i < |members| ==> members[i].key != key
  {
    if members != [] {
      LookupAbsent(members[1..], key);
      assert forall i :: 1 <= i < |members| ==> members[i] == members[1..][i - 1];
    }
  }

  /** Lookup finds the first member carrying the key, not a later one. */
  lemma {:induction false} LookupFirst(members: seq<Member>, key: string, i: nat)
    requires i < |members| && members[i].key == key
    requires forall j :: 0 <= j < i ==> members[j].key != key
    ensures Lookup(members, key) == Some(members[i].value)
  {
    if i > 0 {
      LookupFirst(members[1..], key, i - 1);
    }
  }

  /** `cJSON_GetObjectItem`: a member of an object node; NULL for a NULL or non-object node. */
  function GetObjectItem(node: Option<Json>, key: string): Option<Json> {
    if node.Some? && node.value.JObject? then Lookup(node.value.members, key) else None
  }

  /** The child list of a node: the elements of an array, the member values of an object. */
  function Children(node: Option<Json>): seq<Json> {
    if node.None? then []
    else match node.value
      case JArray(elems) => elems
      case JObject(members) => seq(|members|, i requires 0 <= i < |members| => members[i].value)
      case _ => []
  }

  /** `cJSON_GetArraySize`: the number of children; 0 for NULL. */
  function ArraySize(node: Option<Json>): nat {
    |Children(node)|
  }

  /** `cJSON_GetArrayItem`: the i-th child, NULL past the end. */
  function GetArrayItem(node: Option<Json>, i: nat): (item: Option<Json>)
    ensures item.Some? <==> i < ArraySize(node)
  {
    if i < |Children(node)| then Some(Children(node)[i]) else None
  }

  /** `(int)item->valuedouble`: the number of a number node, 0 for any other node. */
  function NumberOf(item: Json): int {
    if item.JNumber? then item.n else 0
  }

  /** `item->valuestring`: the text of a string node, NULL for any other node. */
  function StringOf(item: Json): Option<string> {
    if item.JString? then Some(item.s) else None
  }
}

=== FILE: paths.dfy ===
/**
 * How the kernel turns a path string into the file it names: the string is
 * split at '/', empty and "." parts stay in the current directory, ".." goes
 * back one directory (at the root it stays there), and every other part
 * enters the entry of that name. This is the lookup when every directory on
 * the way exists and none is a symbolic link.
 */
module Paths {
  /** A resolved path: whether it starts at the root, and the entries it passes through. */
  datatype FilePath = FilePath(absolute: bool, names: seq<string>)

  /** The '/'-separated parts of a path, empty parts included. */
  function PathParts(path: string): (parts: seq<string>)
    ensures |parts| >= 1
    decreases |path|
  {
    if |path| == 0 then [""]
    else
      var rest := PathParts(path[1..]);
      if path[0] == '/' then [""] + rest
      else [[path[0]] + rest[0]] + rest[1..]
  }

  /** A part that enters a directory entry rather than staying or going back. */
  predicate PlainName(part: string) {
    part != "" && part != "." && part != ".."
  }

  /** One part of the walk from dirs. A relative path keeps a ".." it cannot take back. */
  function Step(absolute: bool, dirs: seq<string>, part: string): seq<string> {
    if part == "" || part == "." then dirs
    else if part == ".." then
      if |dirs| > 0 && dirs[|dirs| - 1] != ".." then dirs[..|dirs| - 1]
      else if absolute then dirs
      else dirs + [".."]
    else dirs + [part]
  }

  function Walk(absolute: bool, dirs: seq<string>, parts: seq<string>): seq<string>
    decreases |parts|
  {
    if |parts| == 0 then dirs else Walk(absolute, Step(absolute, dirs, parts[0]), parts[1..])
  }

  /** The file a path names. */
  function Resolve(path: string): FilePath {
    var absolute := |path| > 0 && path[0] == '/';
    FilePath(absolute, Walk(absolute, [], PathParts(path)))
  }

  /** A '/' between two strings separates their parts. */
  lemma {:induction false} PartsJoin(s: string, t: string)
    ensures PathParts(s + "/" + t) == PathParts(s) + PathParts(t)
    decreases |s|
  {
    if |s| == 0 {
      assert s + "/" + t == "/" + t;
      assert ("/" + t)[1..] == t;
    } else {
      assert (s + "/" + t)[1..] == s[1..] + "/" + t;
      PartsJoin(s[1..], t);
    }
  }

  /** A string without '/' is one part. */
  lemma {:induction false} PartsOfName(t: string)
    requires '/' !in t
    ensures PathParts(t) == [t]
    decreases |t|
  {
    if |t| > 0 {
      assert '/' !in t[1..] by {
        forall k | 0 <= k < |t[1..]|
          ensures t[1..][k] != '/'
        {
          assert t[1..][k] == t[k + 1];
        }
      }
      PartsOfName(t[1..]);
      assert [t[0]] + t[1..] == t;
    }
  }

  /** A name without '/' followed by '/' is the first part. */
  lemma PartsJoinName(name: string, rest: string)
    requires '/' !in name
    ensures PathParts(name + "/" + rest) == [name] + PathParts(rest)
  {
    PartsJoin(name, rest);
    PartsOfName(name);
  }

  /** ".." then a name without '/' is two parts. */
  lemma UpParts(name: string)
    requires '/' !in name
    ensures PathParts(".." + "/" + name) == ["..", name]
  {
    PartsJoinName("..", name);
    PartsOfName(name);
  }

  /** Walking two runs of parts is walking the first, then the second from where it ended. */
  lemma {:induction false} WalkJoin(absolute: bool, dirs: seq<string>, p: seq<string>, q: seq<string>)
    ensures Walk(absolute, dirs, p + q) == Walk(absolute, Walk(absolute, dirs, p), q)
    decreases |p|
  {
    if |p| > 0 {
      assert (p + q)[0] == p[0];
      assert (p + q)[1..] == p[1..] + q;
      WalkJoin(absolute, Step(absolute, dirs, p[0]), p[1..], q);
    } else {
      assert p + q == q;
    }
  }

  /** Plain names are entered one after the other. */
  lemma {:induction false} WalkPlain(absolute: bool, dirs: seq<string>, p: seq<string>)
    requires forall part <- p :: PlainName(part)
    ensures Walk(absolute, dirs, p) == dirs + p
    decreases |p|
  {
    if |p| > 0 {
      assert p[0] in p;
      assert forall part <- p[1..] :: part in p;
      WalkPlain(absolute, dirs + [p[0]], p[1..]);
      assert dirs + [p[0]] + p[1..] == dirs + p;
    }
  }

  /** Where a path that continues prefix after a '/' starts from. */
  function After(prefix: string): FilePath {
    var absolute := |prefix| == 0 || prefix[0] == '/';
    FilePath(absolute, Walk(absolute, [], PathParts(prefix)))
  }

  /** A path that continues prefix after a '/' is walked from where prefix leads. */
  lemma ResolveAfter(prefix: string, rest: string)
    ensures Resolve(prefix + "/" + rest)
      == FilePath(After(prefix).absolute, Walk(After(prefix).absolute, After(prefix).names, PathParts(rest)))
  {
    PartsJoin(prefix, rest);
    WalkJoin(After(prefix).absolute, [], PathParts(prefix), PathParts(rest));
    assert (prefix + "/" + rest)[0] == if |prefix| == 0 then '/' else prefix[0];
  }

  /** Two plain names after prefix enter the one, then the other. */
  lemma ResolveTwo(prefix: string, a: string, b: string)
    requires '/' !in a && '/' !in b && PlainName(a) && PlainName(b)
    ensures Resolve(prefix + ("/" + a + "/" + b)) == FilePath(After(prefix).absolute, After(prefix).names + [a, b])
  {
    var root := After(prefix);
    assert prefix + ("/" + a + "/" + b) == prefix + "/" + (a + "/" + b);
    ResolveAfter(prefix, a + "/" + b);
    PartsJoinName(a, b);
    PartsOfName(b);
    WalkPlain(root.absolute, root.names, [a, b]);
  }

  /** Two names without '/' after prefix, then the rest: the names are walked, then the rest's parts. */
  lemma ResolveUnder(prefix: string, a: string, b: string, rest: string)
    requires '/' !in a && '/' !in b
    ensures Resolve(prefix + ("/" + a + "/" + b + "/" + rest))
      == FilePath(After(prefix).absolute, Walk(After(prefix).absolute, After(prefix).names, [a, b] + PathParts(rest)))
  {
    assert prefix + ("/" + a + "/" + b + "/" + rest) == prefix + "/" + (a + "/" + (b + "/" + rest));
    ResolveAfter(prefix, a + "/" + (b + "/" + rest));
    PartsJoinName(a, b + "/" + rest);
    PartsJoinName(b, rest);
  }

  /** Two plain names, "..", then a plain name: the second is left again for the last. */
  lemma WalkBack(absolute: bool, dirs: seq<string>, a: string, b: string, c: string)
    requires PlainName(a) && PlainName(b) && PlainName(c)
    ensures Walk(absolute, dirs, [a, b, "..", c]) == dirs + [a, c]
  {
    assert [a, b, "..", c][1..] == [b, "..", c];
    assert [b, "..", c][1..] == ["..", c];
    assert ["..", c][1..] == [c];
    assert Walk(absolute, dirs, [a, b, "..", c]) == Walk(absolute, dirs + [a], [b, "..", c]);
    assert Walk(absolute, dirs + [a], [b, "..", c]) == Walk(absolute, dirs + [a] + [b], ["..", c]);
    assert (dirs + [a] + [b])[..|dirs + [a] + [b]| - 1] == dirs + [a];
    assert Walk(absolute, dirs + [a] + [b], ["..", c]) == Walk(absolute, dirs + [a], [c]);
    assert Walk(absolute, dirs + [a], [c]) == Walk(absolute, dirs + [a] + [c], []);
  }

  /** Two plain names, ".", then a plain name: the "." changes nothing. */
  lemma WalkStay(absolute: bool, dirs: seq<string>, a: string, b: string, c: string)
    requires PlainName(a) && PlainName(b) && PlainName(c)
    ensures Walk(absolute, dirs, [a, b, ".", c]) == dirs + [a, b, c]
  {
    assert [a, b, ".", c][1..] == [b, ".", c];
    assert [b, ".", c][1..] == [".", c];
    assert [".", c][1..] == [c];
    assert Walk(absolute, dirs, [a, b, ".", c]) == Walk(absolute, dirs + [a], [b, ".", c]);
    assert Walk(absolute, dirs + [a], [b, ".", c]) == Walk(absolute, dirs + [a] + [b], [".", c]);
    assert Walk(absolute, dirs + [a] + [b], [".", c]) == Walk(absolute, dirs + [a] + [b], [c]);
    assert Walk(absolute, dirs + [a] + [b], [c]) == Walk(absolute, dirs + [a] + [b] + [c], []);
  }
}

=== FILE: restore.dfy ===
/**
 * The restore engine: reloads a saved list, starts every stored command in
 * order, then looks for each titled window by a substring of its title and
 * puts it back where it was.
 *
 * The X server is given as an oracle of client-list fetches: lookup number
 * n sees `polls(n)`, None when `_NET_CLIENT_LIST` is missing or cannot be
 * fetched. Lookups are numbered across the whole restore, so a later
 * window's search sees later fetches. Process spawning and the requests
 * sent to the X server become an action trace.
 */
module Restore {
  import opened Wrappers
  import opened CStrings
  import opened Snapshot
  import opened Session
  import Capture

  /** The X resource id `None`: the lookup's answer when no window is found. */
  const NONE: nat := 0
  /** `short_title` holds 63 chars and the NUL. */
  const MATCH_KEY_LEN: nat := 63
  /** The timeout, in seconds, restore gives each window search. */
  const MATCH_TIMEOUT: int := 5
  /** The first data word of a `_NET_WM_STATE` client message: 1 adds the named states. */
  const NET_WM_STATE_ADD: int := 1

  /** A top-level client as one lookup sees it: its id and the name XFetchName gives, if any. */
  datatype LiveWindow = LiveWindow(id: nat, name: Option<string>)

  /** One fetch of the client list. */
  type Poll = Option<seq<LiveWindow>>

  /** What the engine does to the world outside, in order. */
  datatype Action =
    | Launch(argv: seq<string>)
    | Maximize(win: nat, stateAction: int, first: string, second: string)
    | MoveResize(win: nat, x: int, y: int, width: nat, height: nat)
    | Warn(key: string)

  // ---------------------------------------------------------------------
  // Finding a window by title

  /** `strstr(name, title)` on a client that has a name. */
  predicate Matches(c: LiveWindow, title: string) {
    c.name.Some? && Contains(c.name.value, title)
  }

  /** The id of the first client from index i on whose name contains title; NONE if there is none. */
  function FirstMatchFrom(clients: seq<LiveWindow>, title: string, i: nat): nat
    decreases |clients| - i
  {
    if i >= |clients| then NONE
    else if Matches(clients[i], title) then clients[i].id
    else FirstMatchFrom(clients, title, i + 1)
  }

  /** `find_window_by_title` as a function of the one fetch it makes. */
  function FoundWindow(poll: Poll, title: string): nat {
    if poll.None? then NONE else FirstMatchFrom(poll.value, title, 0)
  }

  /** A matching client with no match before it is the one found. */
  lemma {:induction false} FirstMatchFromAt(clients: seq<LiveWindow>, title: string, i: nat, k: nat)
    requires i <= k < |clients| && Matches(clients[k], title)
    requires forall j :: i <= j < k ==> !Matches(clients[j], title)
    ensures FirstMatchFrom(clients, title, i) == clients[k].id
    decreases k - i
  {
    if i < k {
      FirstMatchFromAt(clients, title, i + 1, k);
    }
  }

  /** With no matching client, nothing is found. */
  lemma {:induction false} FirstMatchFromNone(clients: seq<LiveWindow>, title: string, i: nat)
    requires forall j :: i <= j < |clients| ==> !Matches(clients[j], title)
    ensures FirstMatchFrom(clients, title, i) == NONE
    decreases |clients| - i
  {
    if i < |clients| {
      FirstMatchFromNone(clients, title, i + 1);
    }
  }

  /** What is found is the id of a matching client that no earlier client precedes in matching. */
  lemma {:induction false} FirstMatchFromFound(clients: seq<LiveWindow>, title: string, i: nat)
    requires FirstMatchFrom(clients, title, i) != NONE
    ensures exists k :: (i <= k < |clients| && Matches(clients[k], title)
                          && clients[k].id == FirstMatchFrom(clients, title, i)
                          && forall j :: i <= j < k ==> !Matches(clients[j], title))
    decreases |clients| - i
  {
    if !Matches(clients[i], title) {
      FirstMatchFromFound(clients, title, i + 1);
      var k :| i + 1 <= k < |clients| && Matches(clients[k], title)
        && clients[k].id == FirstMatchFrom(clients, title, i + 1)
        && forall j :: i + 1 <= j < k ==> !Matches(clients[j], title);
      assert forall j :: i <= j < k ==> !Matches(clients[j], title);
    }
  }

  /** Client k matches the title and no client before it does. */
  predicate FirstMatching(clients: seq<LiveWindow>, title: string, k: int) {
    0 <= k < |clients| && Matches(clients[k], title) && forall j :: 0 <= j < k ==> !Matches(clients[j], title)
  }

  /**
   * The lookup answers the first client in list order whose name contains
   * the title; nameless clients never match; an unavailable client list
   * and a list with no match both give NONE.
   */
  lemma FoundWindowIsFirstMatch(poll: Poll, title: string)
    ensures poll.None? ==> FoundWindow(poll, title) == NONE
    ensures poll.Some? && (forall j :: 0 <= j < |poll.value| ==> !Matches(poll.value[j], title))
      ==> FoundWindow(poll, title) == NONE
    ensures poll.Some? ==> forall k :: FirstMatching(poll.value, title, k) ==> FoundWindow(poll, title) == poll.value[k].id
    ensures FoundWindow(poll, title) != NONE ==>
      poll.Some? && exists k :: FirstMatching(poll.value, title, k) && poll.value[k].id == FoundWindow(poll, title)
  {
    if poll.Some? {
      var cs := poll.value;
      if forall j :: 0 <= j < |cs| ==> !Matches(cs[j], title) {
        FirstMatchFromNone(cs, title, 0);
      }
      forall k | FirstMatching(cs, title, k)
        ensures FoundWindow(poll, title) == cs[k].id
      {
        FirstMatchFromAt(cs, title, 0, k);
      }
      if FoundWindow(poll, title) != NONE {
        FirstMatchFromFound(cs, title, 0);
        var k :| 0 <= k < |cs| && Matches(cs[k], title) && cs[k].id == FoundWindow(poll, title)
          && forall j :: 0 <= j < k ==> !Matches(cs[j], title);
        assert FirstMatching(cs, title, k);
      }
    }
  }

  /** Walks the fetched client list and stops at the first name containing the title. */
  method FindWindowByTitle(poll: Poll, title: string) returns (found: nat)
    ensures found == FoundWindow(poll, title)
  {
    if poll.None? {
      return NONE;
    }
    var windows := poll.value;
    found := NONE;
    var i := 0;
    while i < |windows|
      invariant 0 <= i <= |windows|
      invariant FirstMatchFrom(windows, title, i) == FirstMatchFrom(windows, title, 0)
      invariant found == NONE
    {
      var name := windows[i].name;
      if name.Some? && Contains(name.value, title) {
        found := windows[i].id;
        break;
      }
      i := i + 1;
    }
  }

  // ---------------------------------------------------------------------
  // Waiting for a window

  /** The number of lookups the wait makes at most: two per second of timeout. */
  function Attempts(timeoutSec: int): nat {
    if timeoutSec <= 0 then 0 else 2 * timeoutSec
  }

  /** The outcome of a wait: the window found (NONE if none) and how many lookups it took. */
  datatype Wait = Wait(found: nat, lookups: nat)

  /** Up to n lookups starting with lookup number start, stopping at the first that finds a window. */
  function WaitFrom(polls: nat -> Poll, title: string, start: nat, n: nat): Wait
    decreases n
  {
    if n == 0 then Wait(NONE, 0)
    else if FoundWindow(polls(start), title) != NONE then Wait(FoundWindow(polls(start), title), 1)
    else
      var rest := WaitFrom(polls, title, start + 1, n - 1);
      Wait(rest.found, rest.lookups + 1)
  }

  /**
   * The wait makes at most n lookups and answers the first lookup that
   * finds a window; when it answers NONE, all n lookups found nothing.
   */
  lemma {:induction false} WaitIsFirstSuccess(polls: nat -> Poll, title: string, start: nat, n: nat)
    ensures WaitFrom(polls, title, start, n).lookups <= n
    ensures var r := WaitFrom(polls, title, start, n);
      r.found != NONE ==> (1 <= r.lookups
                           && r.found == FoundWindow(polls(start + r.lookups - 1), title)
                           && forall m :: start <= m < start + r.lookups - 1 ==> FoundWindow(polls(m), title) == NONE)
    ensures var r := WaitFrom(polls, title, start, n);
      r.found == NONE ==> (r.lookups == n && AllMissed(polls, title, start, n))
    decreases n
  {
    if n > 0 && FoundWindow(polls(start), title) == NONE {
      WaitIsFirstSuccess(polls, title, start + 1, n - 1);
    }
  }

  /** The n lookups from number start on all found nothing. */
  ghost predicate AllMissed(polls: nat -> Poll, title: string, start: nat, n: nat) {
    forall m :: start <= m < start + n ==> FoundWindow(polls(m), title) == NONE
  }

  /** Polls up to 2 * timeoutSec times, returning as soon as a lookup finds the window. */
  method WaitForWindow(polls: nat -> Poll, title: string, start: nat, timeoutSec: int) returns (r: Wait)
    ensures r == WaitFrom(polls, title, start, Attempts(timeoutSec))
  {
    var n := Attempts(timeoutSec);
    var i := 0;
    while i < n
      invariant 0 <= i <= n
      invariant WaitFrom(polls, title, start, n)
        == Wait(WaitFrom(polls, title, start + i, n - i).found, WaitFrom(polls, title, start + i, n - i).lookups + i)
    {
      var w := FindWindowByTitle(polls(start + i), title);
      if w != NONE {
        return Wait(w, i + 1);
      }
      i := i + 1;
    }
    return Wait(NONE, i);
  }

  // ---------------------------------------------------------------------
  // Repositioning by title

  /**
   * `reposition_window`: -1 and nothing sent when no client matches;
   * otherwise 0 and one move/resize of the first match, the sizes read as
   * unsigned.
   */
  method RepositionWindow(poll: Poll, title: string, x: int, y: int, w: int, h: int)
    returns (code: int, actions: seq<Action>)
    ensures FoundWindow(poll, title) == NONE ==> code == -1 && actions == []
    ensures FoundWindow(poll, title) != NONE ==>
      code == 0 && actions == [MoveResize(FoundWindow(poll, title), x, y, ToCUInt(w), ToCUInt(h))]
  {
    var win := FindWindowByTitle(poll, title);
    if win == NONE {
      return -1, [];
    }
    return 0, [MoveResize(win, x, y, ToCUInt(w), ToCUInt(h))];
  }

  // ---------------------------------------------------------------------
  // Launching

  /**
   * `launch_app`: nothing for a record without a command, otherwise one
   * launch of the stored arguments cmd[0..cmd_argc). The argument vector
   * has room for MAX_CMD_ARGS entries and the NULL, hence the requirement.
   */
  function LaunchApp(w: WindowInfo): (actions: seq<Action>)
    requires ArgcStored(w)
    ensures w.cmdArgc == 0 <==> actions == []
    ensures w.cmdArgc > 0 ==> actions == [Launch(w.cmd)] && |w.cmd| == w.cmdArgc
  {
    if w.cmdArgc == 0 then []
    else
      assert w.cmd[..w.cmdArgc] == w.cmd;
      [Launch(w.cmd[..w.cmdArgc])]
  }

  /** The launches for the first i records, in list order. */
  function LaunchUpTo(list: seq<WindowInfo>, i: nat): seq<Action>
    requires i <= |list| && forall w <- list :: ArgcStored(w)
  {
    if i == 0 then [] else LaunchUpTo(list, i - 1) + LaunchApp(list[i - 1])
  }

  /** How many of the first i records have a command. */
  function Launchable(list: seq<WindowInfo>, i: nat): nat
    requires i <= |list|
    ensures Launchable(list, i) <= i
  {
    if i == 0 then 0 else Launchable(list, i - 1) + (if list[i - 1].cmdArgc > 0 then 1 else 0)
  }

  /**
   * The launch phase holds one launch per record with a command and nothing
   * else; record j's launch sits at the position counting the records with
   * a command before it, so launches keep the stored order.
   */
  lemma LaunchesInOrder(list: seq<WindowInfo>, i: nat)
    requires i <= |list| && forall w <- list :: ArgcStored(w)
    ensures |LaunchUpTo(list, i)| == Launchable(list, i)
    ensures forall a <- LaunchUpTo(list, i) :: a.Launch?
    ensures forall j :: 0 <= j < i && list[j].cmdArgc > 0 ==>
      Launchable(list, j) < Launchable(list, i) && LaunchUpTo(list, i)[Launchable(list, j)] == Launch(list[j].cmd)
  {
    LaunchCount(list, i);
    forall j | 0 <= j < i && list[j].cmdArgc > 0
      ensures Launchable(list, j) < Launchable(list, i) && LaunchUpTo(list, i)[Launchable(list, j)] == Launch(list[j].cmd)
    {
      LaunchAt(list, i, j);
    }
  }

  /** The launch phase has one launch per record with a command, and only launches. */
  lemma {:induction false} LaunchCount(list: seq<WindowInfo>, i: nat)
    requires i <= |list| && forall w <- list :: ArgcStored(w)
    ensures |LaunchUpTo(list, i)| == Launchable(list, i)
    ensures forall a <- LaunchUpTo(list, i) :: a.Launch?
  {
    if i > 0 {
      LaunchCount(list, i - 1);
      assert list[i - 1] in list;
    }
  }

  /** Record j's launch sits at the position counting the records with a command before it. */
  lemma {:induction false} LaunchAt(list: seq<WindowInfo>, i: nat, j: nat)
    requires j < i <= |list| && forall w <- list :: ArgcStored(w)
    requires list[j].cmdArgc > 0
    ensures Launchable(list, j) < Launchable(list, i) == |LaunchUpTo(list, i)|
    ensures LaunchUpTo(list, i)[Launchable(list, j)] == Launch(list[j].cmd)
  {
    LaunchCount(list, i - 1);
    assert list[i - 1] in list;
    if j < i - 1 {
      LaunchAt(list, i - 1, j);
    } else {
      assert list[j] in list;
    }
  }

  /** A record placed later with a command launches strictly later. */
  lemma {:induction false} LaunchableIncreasing(list: seq<WindowInfo>, j: nat, k: nat)
    requires j < k <= |list| && list[j].cmdArgc > 0
    ensures Launchable(list, j) < Launchable(list, k)
    decreases k - j
  {
    if k > j + 1 {
      LaunchableIncreasing(list, j, k - 1);
    }
  }

  // ---------------------------------------------------------------------
  // Matching and repositioning

  /** A record the match loop does not skip: its stored title is not empty. */
  predicate Titled(w: WindowInfo) {
    |w.title| > 0
  }

  /** The search key: the stored title cut to its first 63 chars. */
  function MatchKey(w: WindowInfo): (key: string)
    ensures |key| <= MATCH_KEY_LEN && |key| <= |w.title| && key == w.title[..|key|]
    ensures |w.title| <= MATCH_KEY_LEN ==> key == w.title
  {
    Truncate(w.title, MATCH_KEY_LEN)
  }

  /**
   * What restore sends for a titled record once the wait is over: a
   * warning when nothing was found, else the add-maximize state message for
   * a record stored maximized, else a move/resize to the stored geometry.
   */
  function Reposition(w: WindowInfo, win: nat): seq<Action> {
    if win == NONE then [Warn(MatchKey(w))]
    else if w.isMaximized != 0 then
      [Maximize(win, NET_WM_STATE_ADD, Capture.NET_WM_STATE_MAXIMIZED_VERT, Capture.NET_WM_STATE_MAXIMIZED_HORZ)]
    else [MoveResize(win, w.x, w.y, ToCUInt(w.width), ToCUInt(w.height))]
  }

  /** The actions of the match loop and the lookups it makes. */
  datatype Phase = Phase(actions: seq<Action>, lookups: nat)

  /** The match loop from record i on, its first lookup being number start. */
  function MatchFrom(list: seq<WindowInfo>, i: nat, polls: nat -> Poll, start: nat): Phase
    decreases |list| - i
  {
    if i >= |list| then Phase([], 0)
    else if !Titled(list[i]) then MatchFrom(list, i + 1, polls, start)
    else
      var r := WaitFrom(polls, MatchKey(list[i]), start, Attempts(MATCH_TIMEOUT));
      var rest := MatchFrom(list, i + 1, polls, start + r.lookups);
      Phase(Reposition(list[i], r.found) + rest.actions, r.lookups + rest.lookups)
  }

  /** One turn of the match loop over an untitled record adds nothing. */
  lemma SkipStep(list: seq<WindowInfo>, i: nat, polls: nat -> Poll, start: nat)
    requires i < |list| && !Titled(list[i])
    ensures MatchFrom(list, i, polls, start).actions == MatchFrom(list, i + 1, polls, start).actions
  {
  }

  /** One turn of the match loop over a titled record adds its answer to the wait's outcome r. */
  lemma MatchStep(list: seq<WindowInfo>, i: nat, polls: nat -> Poll, start: nat, r: Wait)
    requires i < |list| && Titled(list[i])
    requires r == WaitFrom(polls, MatchKey(list[i]), start, Attempts(MATCH_TIMEOUT))
    ensures MatchFrom(list, i, polls, start).actions
      == Reposition(list[i], r.found) + MatchFrom(list, i + 1, polls, start + r.lookups).actions
  {
  }

  /** How many records in [i, j) are titled. */
  function TitledBetween(list: seq<WindowInfo>, i: nat, j: nat): nat
    requires j <= |list|
    decreases j - i
  {
    if j <= i then 0 else (if Titled(list[i]) then 1 else 0) + TitledBetween(list, i + 1, j)
  }

  /** A titled record at j comes before every titled record counted after it. */
  lemma {:induction false} TitledBefore(list: seq<WindowInfo>, i: nat, j: nat)
    requires i <= j < |list| && Titled(list[j])
    ensures TitledBetween(list, i, j) < TitledBetween(list, i, |list|)
    decreases j - i
  {
    if i < j {
      TitledBefore(list, i + 1, j);
    }
  }

  /** One of the wait's lookups, from lookup number start on, saw win as the first client matching key. */
  ghost predicate Seen(polls: nat -> Poll, win: nat, key: string, start: nat) {
    exists m: nat :: start <= m < start + Attempts(MATCH_TIMEOUT) && FoundWindow(polls(m), key) == win
  }

  /** Every lookup of the wait that starts at lookup number start found nothing for key. */
  ghost predicate Exhausted(polls: nat -> Poll, key: string, start: nat) {
    AllMissed(polls, key, start, Attempts(MATCH_TIMEOUT))
  }

  /** The lookup number at which record j's wait begins, when the match loop starts at record i and lookup start. */
  function WaitStart(list: seq<WindowInfo>, i: nat, polls: nat -> Poll, start: nat, j: nat): nat
    requires i <= j <= |list|
    decreases j - i
  {
    if i == j then start
    else if !Titled(list[i]) then WaitStart(list, i + 1, polls, start, j)
    else WaitStart(list, i + 1, polls, start + WaitFrom(polls, MatchKey(list[i]), start, Attempts(MATCH_TIMEOUT)).lookups, j)
  }

  /**
   * The one action the match loop sends for a titled record whose wait
   * begins at lookup number start: a warning naming its key after that
   * whole wait found nothing, or, for a window one of the wait's lookups
   * found by that key, the add-maximize message naming
   * MAXIMIZED_VERT and MAXIMIZED_HORZ when the record is maximized and a
   * move/resize to its stored geometry otherwise.
   */
  ghost predicate Answers(w: WindowInfo, a: Action, polls: nat -> Poll, start: nat) {
    || (a == Warn(MatchKey(w)) && Exhausted(polls, MatchKey(w), start))
    || (w.isMaximized != 0 && a.Maximize? && a.win != NONE && Seen(polls, a.win, MatchKey(w), start)
        && a.stateAction == NET_WM_STATE_ADD
        && a.first == Capture.NET_WM_STATE_MAXIMIZED_VERT && a.second == Capture.NET_WM_STATE_MAXIMIZED_HORZ)
    || (w.isMaximized == 0 && a.MoveResize? && a.win != NONE && Seen(polls, a.win, MatchKey(w), start)
        && a == MoveResize(a.win, w.x, w.y, ToCUInt(w.width), ToCUInt(w.height)))
  }

  /** The action sent after one wait answers its record. */
  lemma RepositionAnswers(w: WindowInfo, polls: nat -> Poll, start: nat)
    ensures var r := WaitFrom(polls, MatchKey(w), start, Attempts(MATCH_TIMEOUT));
      Answers(w, Reposition(w, r.found)[0], polls, start)
  {
    var key := MatchKey(w);
    var r := WaitFrom(polls, key, start, Attempts(MATCH_TIMEOUT));
    WaitIsFirstSuccess(polls, key, start, Attempts(MATCH_TIMEOUT));
    if r.found == NONE {
      assert AllMissed(polls, key, start, Attempts(MATCH_TIMEOUT));
    } else {
      var m: nat := start + r.lookups - 1;
      assert FoundWindow(polls(m), key) == r.found;
    }
  }

  /**
   * The match loop sends exactly one action per titled record and none for
   * an untitled one, launches nothing, and makes at most ten lookups per
   * titled record.
   */
  lemma {:induction false} MatchCounts(list: seq<WindowInfo>, i: nat, polls: nat -> Poll, start: nat)
    requires i <= |list|
    ensures |MatchFrom(list, i, polls, start).actions| == TitledBetween(list, i, |list|)
    ensures MatchFrom(list, i, polls, start).lookups <= Attempts(MATCH_TIMEOUT) * TitledBetween(list, i, |list|)
    ensures forall a <- MatchFrom(list, i, polls, start).actions :: !a.Launch?
    decreases |list| - i
  {
    if i < |list| {
      if !Titled(list[i]) {
        MatchCounts(list, i + 1, polls, start);
      } else {
        var r := WaitFrom(polls, MatchKey(list[i]), start, Attempts(MATCH_TIMEOUT));
        WaitIsFirstSuccess(polls, MatchKey(list[i]), start, Attempts(MATCH_TIMEOUT));
        MatchCounts(list, i + 1, polls, start + r.lookups);
      }
    }
  }

  /** The action at a titled record's position answers that record. */
  lemma {:induction false} MatchAnswers(list: seq<WindowInfo>, i: nat, polls: nat -> Poll, start: nat, j: nat)
    requires i <= j < |list| && Titled(list[j])
    ensures TitledBetween(list, i, j) < |MatchFrom(list, i, polls, start).actions|
    ensures WaitStart(list, i, polls, start, j) >= start
    ensures Answers(list[j], MatchFrom(list, i, polls, start).actions[TitledBetween(list, i, j)], polls,
                    WaitStart(list, i, polls, start, j))
    decreases j - i
  {
    MatchCounts(list, i, polls, start);
    TitledBefore(list, i, j);
    if i == j {
      RepositionAnswers(list[i], polls, start);
    } else if !Titled(list[i]) {
      MatchAnswers(list, i + 1, polls, start, j);
    } else {
      var r := WaitFrom(polls, MatchKey(list[i]), start, Attempts(MATCH_TIMEOUT));
      MatchAnswers(list, i + 1, polls, start + r.lookups, j);
    }
  }

  // ---------------------------------------------------------------------
  // The whole restore

  /** Every launch, in list order, then the match loop from the first record and the first lookup. */
  function RestoreTrace(list: seq<WindowInfo>, polls: nat -> Poll): seq<Action>
    requires forall w <- list :: ArgcStored(w)
  {
    LaunchUpTo(list, |list|) + MatchFrom(list, 0, polls, 0).actions
  }

  /** No launch follows any other action: every launch comes before matching begins. */
  lemma LaunchesBeforeMatching(list: seq<WindowInfo>, polls: nat -> Poll)
    requires forall w <- list :: ArgcStored(w)
    ensures forall k, l :: (0 <= k < l < |RestoreTrace(list, polls)| && RestoreTrace(list, polls)[l].Launch?
                            ==> RestoreTrace(list, polls)[k].Launch?)
  {
    LaunchesInOrder(list, |list|);
    MatchCounts(list, 0, polls, 0);
    LaunchesLead(LaunchUpTo(list, |list|), MatchFrom(list, 0, polls, 0).actions);
  }

  /** Launches followed by actions that are not launches: no launch comes after a non-launch. */
  lemma LaunchesLead(launches: seq<Action>, rest: seq<Action>)
    requires forall a <- launches :: a.Launch?
    requires forall a <- rest :: !a.Launch?
    ensures forall k, l :: 0 <= k < l < |launches + rest| && (launches + rest)[l].Launch? ==> (launches + rest)[k].Launch?
  {
    forall l | |launches| <= l < |launches + rest|
      ensures !(launches + rest)[l].Launch?
    {
      assert (launches + rest)[l] in rest;
    }
    forall k | 0 <= k < |launches|
      ensures (launches + rest)[k].Launch?
    {
      assert (launches + rest)[k] in launches;
    }
  }

  /**
   * `restore_session`: -1 when the session does not load; 0 and nothing
   * done for an empty list, without touching the display; -1 when the
   * display cannot be opened; otherwise every launch, then one answer per
   * titled window, and 0 whatever the windows' outcomes.
   */
  method RestoreSession(
    files: FileSystem, home: Option<string>, profile: Option<string>, displayOpens: bool, polls: nat -> Poll)
    returns (code: int, trace: seq<Action>)
    requires var loaded := LoadedSession(files, home, profile);
      loaded.Some? ==> forall w <- loaded.value :: w.cmdArgc <= MAX_CMD_ARGS
    ensures code == 0 || code == -1
    ensures LoadedSession(files, home, profile).None? ==> code == -1 && trace == []
    ensures LoadedSession(files, home, profile) == Some([]) ==> code == 0 && trace == []
    ensures var loaded := LoadedSession(files, home, profile);
      loaded.Some? && loaded.value != [] && !displayOpens ==> code == -1 && trace == []
    ensures var loaded := LoadedSession(files, home, profile);
      loaded.Some? && loaded.value != [] && displayOpens ==> code == 0 && trace == RestoreTrace(loaded.value, polls)
  {
    var loaded := LoadSession(files, home, profile);
    if loaded.None? {
      return -1, [];
    }
    var list := loaded.value;
    if |list| == 0 {
      return 0, [];
    }
    if !displayOpens {
      return -1, [];
    }
    assert forall w <- list :: ArgcStored(w);
    var launches := LaunchAll(list);
    var answers := MatchAll(list, polls);
    return 0, launches + answers;
  }

  /** The launch loop: `launch_app` on every record, in list order. */
  method LaunchAll(list: seq<WindowInfo>) returns (trace: seq<Action>)
    requires forall w <- list :: ArgcStored(w)
    ensures trace == LaunchUpTo(list, |list|)
  {
    trace := [];
    var i := 0;
    while i < |list|
      invariant 0 <= i <= |list|
      invariant trace == LaunchUpTo(list, i)
    {
      trace := trace + LaunchApp(list[i]);
      i := i + 1;
    }
  }

  /**
   * One titled record's turn of the match loop: wait for the window by the
   * record's key, then warn, maximize or move/resize it.
   */
  method AnswerWindow(w: WindowInfo, polls: nat -> Poll, lookup: nat) returns (sent: seq<Action>, r: Wait)
    ensures r == WaitFrom(polls, MatchKey(w), lookup, Attempts(MATCH_TIMEOUT))
    ensures sent == Reposition(w, r.found)
  {
    var key := Truncate(w.title, MATCH_KEY_LEN);
    r := WaitForWindow(polls, key, lookup, MATCH_TIMEOUT);
    if r.found == NONE {
      sent := [Warn(key)];
    } else if w.isMaximized != 0 {
      sent := [Maximize(r.found, NET_WM_STATE_ADD,
        Capture.NET_WM_STATE_MAXIMIZED_VERT, Capture.NET_WM_STATE_MAXIMIZED_HORZ)];
    } else {
      sent := [MoveResize(r.found, w.x, w.y, ToCUInt(w.width), ToCUInt(w.height))];
    }
  }

  /**
   * The match loop: skips untitled records, waits for each other one by its
   * key and sends what Reposition says, the lookups numbered on from 0.
   */
  method MatchAll(list: seq<WindowInfo>, polls: nat -> Poll) returns (trace: seq<Action>)
    ensures trace == MatchFrom(list, 0, polls, 0).actions
  {
    trace := [];
    var lookup: nat := 0;
    var i := 0;
    ghost var total := MatchFrom(list, 0, polls, 0).actions;
    while i < |list|
      invariant 0 <= i <= |list|
      invariant trace + MatchFrom(list, i, polls, lookup).actions == total
    {
      var w := list[i];
      if |w.title| == 0 {
        SkipStep(list, i, polls, lookup);
        i := i + 1;
        continue;
      }
      var sent, r := AnswerWindow(w, polls, lookup);
      MatchStep(list, i, polls, lookup, r);
      ghost var rest := MatchFrom(list, i + 1, polls, lookup + r.lookups).actions;
      AppendAssoc(trace, sent, rest);
      trace := trace + sent;
      lookup := lookup + r.lookups;
      i := i + 1;
    }
  }
}

=== FILE: session.dfy ===
/**
 * The session store: where a profile's session file lives, the JSON tree a
 * window list is saved as, and the window list a session file loads back
 * into.
 *
 * The environment is given explicitly: HOME is an optional string, and the
 * file system maps a file, as the kernel resolves a path to it, to the JSON
 * tree its text parses to (None when the text does not parse; a file that is
 * absent cannot be opened).
 */
module Session {
  import opened Wrappers
  import opened CStrings
  import opened Snapshot
  import opened Json
  import opened Paths
  import Capture

  const SESSION_DIR: string := "/.sessionsnap"
  const SESSION_FILE: string := "/.sessionsnap/session.json"
  const SESSIONS_DIR: string := "/.sessionsnap/sessions"
  /** Size of every path buffer, its terminating NUL included. */
  const PATH_SIZE: nat := 512
  /** The home directory used when HOME is unset. */
  const FALLBACK_HOME: string := "/tmp"
  const DEFAULT_PROFILE: string := "default"

  type FileSystem = map<FilePath, Option<Json>>

  // ---------------------------------------------------------------------
  // Paths

  function HomeDir(home: Option<string>): string {
    if home.None? then FALLBACK_HOME else home.value
  }

  /** A NULL profile name and the name "default" both select the single default session. */
  predicate IsDefaultProfile(profile: Option<string>) {
    profile.None? || profile.value == DEFAULT_PROFILE
  }

  /** The path the format string spells out, before the buffer cuts it. */
  function FullSessionPath(home: Option<string>, profile: Option<string>): string {
    if IsDefaultProfile(profile) then HomeDir(home) + SESSION_FILE
    else HomeDir(home) + SESSIONS_DIR + "/" + profile.value + ".json"
  }

  /** `get_session_path` into a 512-byte buffer: the spelled-out path cut to 511 characters. */
  function SessionPath(home: Option<string>, profile: Option<string>): (path: string)
    ensures |path| == Min(|FullSessionPath(home, profile)|, PATH_SIZE - 1)
    ensures |FullSessionPath(home, profile)| < PATH_SIZE ==> path == FullSessionPath(home, profile)
    ensures path == FullSessionPath(home, profile)[..|path|]
  {
    Truncate(FullSessionPath(home, profile), PATH_SIZE - 1)
  }

  /**
   * A named profile never shares the default session file, as long as
   * HOME leaves room for the part of the two paths that tells them apart.
   */
  lemma ProfileIsolation(home: Option<string>, name: string)
    requires name != DEFAULT_PROFILE
    requires |HomeDir(home)| + 22 < PATH_SIZE
    ensures SessionPath(home, Some(name)) != SessionPath(home, None)
  {
    var h := HomeDir(home);
    var named := FullSessionPath(home, Some(name));
    var dflt := FullSessionPath(home, None);
    assert named == h + (SESSIONS_DIR + "/" + name + ".json");
    assert named[|h| + 21] == SESSIONS_DIR[21] == 's';
    assert dflt[|h| + 21] == SESSION_FILE[21] == '.';
    assert SessionPath(home, Some(name))[|h| + 21] == 's';
    assert SessionPath(home, None)[|h| + 21] == '.';
  }

  /** Two different named profiles have different session files while both paths fit the buffer. */
  lemma DistinctProfilesDistinctPaths(home: Option<string>, a: string, b: string)
    requires a != b && a != DEFAULT_PROFILE && b != DEFAULT_PROFILE
    requires |FullSessionPath(home, Some(a))| < PATH_SIZE && |FullSessionPath(home, Some(b))| < PATH_SIZE
    ensures SessionPath(home, Some(a)) != SessionPath(home, Some(b))
  {
    var pre := HomeDir(home) + SESSIONS_DIR + "/";
    var pa := FullSessionPath(home, Some(a));
    var pb := FullSessionPath(home, Some(b));
    assert pa == pre + a + ".json";
    assert pb == pre + b + ".json";
    if |a| == |b| {
      var k :| 0 <= k < |a| && a[k] != b[k];
      assert pa[|pre| + k] == a[k];
      assert pb[|pre| + k] == b[k];
    }
  }

  /**
   * Without that room the buffer cut merges profiles: a 511-character HOME
   * sends every profile, the default one included, to the same path.
   */
  lemma LongHomeMergesProfiles()
    ensures var home := Some(seq(PATH_SIZE - 1, _ => 'h'));
      SessionPath(home, Some("work")) == SessionPath(home, Some("play")) == SessionPath(home, None)
  {
    var h := seq(PATH_SIZE - 1, _ => 'h');
    var home := Some(h);
    assert FullSessionPath(home, Some("work"))[..PATH_SIZE - 1] == h;
    assert FullSessionPath(home, Some("play"))[..PATH_SIZE - 1] == h;
    assert FullSessionPath(home, None)[..PATH_SIZE - 1] == h;
  }

  /**
   * The file the profile's session path names. While the path fits the
   * buffer it is reached from HOME through the session directory (and the
   * sessions directory and the parts of `<name>.json` for a named profile);
   * SessionFileResolves shows this is the resolved path.
   */
  function SessionFile(home: Option<string>, profile: Option<string>): FilePath {
    if |FullSessionPath(home, profile)| >= PATH_SIZE then Resolve(SessionPath(home, profile))
    else if IsDefaultProfile(profile) then UnderHome(home, [".sessionsnap", "session.json"])
    else
      var root := After(HomeDir(home));
      FilePath(root.absolute, Walk(root.absolute, root.names, [".sessionsnap", "sessions"] + PathParts(profile.value + ".json")))
  }

  /** The file reached from HOME through the given entries. */
  function UnderHome(home: Option<string>, names: seq<string>): FilePath {
    var root := After(HomeDir(home));
    FilePath(root.absolute, root.names + names)
  }

  /** The named path is HOME, then the sessions directory's two names, then `<name>.json`. */
  lemma NamedPathShape(home: Option<string>, name: string)
    requires name != DEFAULT_PROFILE
    ensures FullSessionPath(home, Some(name))
      == HomeDir(home) + ("/" + ".sessionsnap" + "/" + "sessions" + "/" + (name + ".json"))
  {
    var h := HomeDir(home);
    AppendAssoc(h, SESSIONS_DIR + "/" + name, ".json");
    AppendAssoc(h, SESSIONS_DIR + "/", name);
    AppendAssoc(h, SESSIONS_DIR, "/");
    SessionsDirShape(name);
  }

  lemma SessionsDirShape(name: string)
    ensures SESSIONS_DIR + "/" + name + ".json" == "/" + ".sessionsnap" + "/" + "sessions" + "/" + (name + ".json")
  {
  }

  /** The default path is HOME, then the session directory's name, then `session.json`. */
  lemma DefaultPathShape(home: Option<string>)
    ensures FullSessionPath(home, None) == HomeDir(home) + ("/" + ".sessionsnap" + "/" + "session.json")
  {
    assert SESSION_FILE == "/" + ".sessionsnap" + "/" + "session.json";
  }

  /** SessionFile is the file the kernel finds at the profile's session path. */
  lemma SessionFileResolves(home: Option<string>, profile: Option<string>)
    ensures SessionFile(home, profile) == Resolve(SessionPath(home, profile))
  {
    var h := HomeDir(home);
    if |FullSessionPath(home, profile)| < PATH_SIZE {
      if IsDefaultProfile(profile) {
        DefaultPathShape(home);
        assert FullSessionPath(home, profile) == FullSessionPath(home, None);
        ResolveTwo(h, ".sessionsnap", "session.json");
      } else {
        NamedPathShape(home, profile.value);
        ResolveUnder(h, ".sessionsnap", "sessions", profile.value + ".json");
      }
    }
  }

  /** `name.json` holds no '/' and is a plain directory entry when name holds no '/'. */
  lemma JsonFileName(name: string)
    requires '/' !in name
    ensures '/' !in name + ".json" && PlainName(name + ".json")
  {
    var file := name + ".json";
    forall k | 0 <= k < |file|
      ensures file[k] != '/'
    {
      if k < |name| {
        assert file[k] == name[k];
      }
    }
  }

  /**
   * A named profile whose name has no '/' gets the file `<name>.json` in
   * the sessions directory under HOME, while its path fits the buffer.
   */
  lemma NamedSessionFile(home: Option<string>, name: string)
    requires name != DEFAULT_PROFILE && '/' !in name
    requires |FullSessionPath(home, Some(name))| < PATH_SIZE
    ensures SessionFile(home, Some(name)) == UnderHome(home, [".sessionsnap", "sessions", name + ".json"])
  {
    var root := After(HomeDir(home));
    var file := name + ".json";
    JsonFileName(name);
    PartsOfName(file);
    assert [".sessionsnap", "sessions"] + PathParts(file) == [".sessionsnap", "sessions", file];
    WalkPlain(root.absolute, root.names, [".sessionsnap", "sessions", file]);
  }

  /**
   * The profile name goes into the path unchecked: the named profile
   * "../<name>" leaves the sessions directory again and names `<name>.json`
   * in the session directory itself. Only with HOME set: only then does
   * `save_session` create the sessions directory the walk passes through.
   */
  lemma UpOneProfile(home: Option<string>, name: string)
    requires home.Some?
    requires '/' !in name
    requires |FullSessionPath(home, Some("../" + name))| < PATH_SIZE
    ensures SessionFile(home, Some("../" + name)) == UnderHome(home, [".sessionsnap", name + ".json"])
  {
    var root := After(HomeDir(home));
    var file := name + ".json";
    assert ("../" + name)[0] == '.' != DEFAULT_PROFILE[0];
    assert ("../" + name) + ".json" == ".." + "/" + file;
    JsonFileName(name);
    UpParts(file);
    assert [".sessionsnap", "sessions"] + PathParts(("../" + name) + ".json") == [".sessionsnap", "sessions", "..", file];
    WalkBack(root.absolute, root.names, ".sessionsnap", "sessions", file);
  }

  /** So the named profile "../session" has a path of its own but names the default profile's file. */
  lemma DotDotProfileIsDefault(home: Option<string>)
    requires home.Some?
    requires |FullSessionPath(home, Some("../session"))| < PATH_SIZE
    ensures SessionPath(home, Some("../session")) != SessionPath(home, None)
    ensures SessionFile(home, Some("../session")) == SessionFile(home, None)
  {
    assert |FullSessionPath(home, None)| < |FullSessionPath(home, Some("../session"))|;
    assert "../" + "session" == "../session";
    assert "session" + ".json" == "session.json";
    UpOneProfile(home, "session");
  }

  /** Likewise "./" in front of a name without '/' leaves the profile's file as it was. */
  lemma DotSlashProfileIsSame(home: Option<string>, name: string)
    requires name != DEFAULT_PROFILE && '/' !in name
    requires |FullSessionPath(home, Some("./" + name))| < PATH_SIZE
    ensures SessionPath(home, Some("./" + name)) != SessionPath(home, Some(name))
    ensures SessionFile(home, Some("./" + name)) == SessionFile(home, Some(name))
  {
    var root := After(HomeDir(home));
    var file := name + ".json";
    assert ("./" + name)[0] == '.' != DEFAULT_PROFILE[0];
    assert |FullSessionPath(home, Some(name))| < |FullSessionPath(home, Some("./" + name))|;
    assert ("./" + name) + ".json" == "." + "/" + file;
    JsonFileName(name);
    PartsJoinName(".", file);
    PartsOfName(file);
    assert [".sessionsnap", "sessions"] + PathParts(("./" + name) + ".json") == [".sessionsnap", "sessions", ".", file];
    WalkStay(root.absolute, root.names, ".sessionsnap", "sessions", file);
    NamedSessionFile(home, name);
  }

  /** `session_file_exists`: the profile's path names an existing file. */
  predicate SessionFileExists(files: FileSystem, home: Option<string>, profile: Option<string>) {
    SessionFile(home, profile) in files
  }

  /** A profile exists exactly when the file its session path resolves to is in the map. */
  lemma ExistsIffResolvedFile(files: FileSystem, home: Option<string>, profile: Option<string>)
    ensures SessionFileExists(files, home, profile) <==> Resolve(SessionPath(home, profile)) in files
  {
    SessionFileResolves(home, profile);
  }

  // ---------------------------------------------------------------------
  // Saving

  /** The stored arguments as a JSON array of strings. */
  function ArgsJson(args: seq<string>): seq<Json> {
    seq(|args|, j requires 0 <= j < |args| => JString(args[j]))
  }

  /** The eleven-member object saved for one window: ten scalars, then the argument array. */
  function WindowJson(w: WindowInfo): Json
    requires ArgcStored(w)
  {
    JObject([
      Member("pid", JNumber(w.pid)),
      Member("title", JString(w.title)),
      Member("exe_path", JString(w.exePath)),
      Member("x", JNumber(w.x)),
      Member("y", JNumber(w.y)),
      Member("width", JNumber(w.width)),
      Member("height", JNumber(w.height)),
      Member("desktop", JNumber(w.desktop)),
      Member("is_maximized", JNumber(w.isMaximized)),
      Member("is_minimized", JNumber(w.isMinimized)),
      Member("cmd", JArray(ArgsJson(w.cmd[..w.cmdArgc])))])
  }

  /** The saved document: the window objects in list order, then the count. */
  function SessionJson(list: seq<WindowInfo>): Json
    requires forall w <- list :: ArgcStored(w)
  {
    JObject([
      Member("windows", JArray(seq(|list|, i requires 0 <= i < |list| => WindowJson(list[i])))),
      Member("count", JNumber(|list|))])
  }

  /** Member names of a saved window object, in the order they are added. */
  const WINDOW_KEYS: seq<string> := [
    "pid", "title", "exe_path", "x", "y", "width", "height",
    "desktop", "is_maximized", "is_minimized", "cmd"]

  lemma WindowJsonKeys(w: WindowInfo)
    requires ArgcStored(w)
    ensures WindowJson(w).JObject? && |WindowJson(w).members| == |WINDOW_KEYS|
    ensures forall k :: 0 <= k < |WINDOW_KEYS| ==> WindowJson(w).members[k].key == WINDOW_KEYS[k]
  {
  }

  lemma WindowKeysDistinct()
    ensures forall j, k :: 0 <= j < k < |WINDOW_KEYS| ==> WINDOW_KEYS[j] != WINDOW_KEYS[k]
  {
  }

  /** Each member of a saved window object is found under its own name. */
  lemma SavedMember(w: WindowInfo, k: nat)
    requires ArgcStored(w) && k < |WINDOW_KEYS|
    ensures GetObjectItem(Some(WindowJson(w)), WINDOW_KEYS[k]) == Some(WindowJson(w).members[k].value)
  {
    WindowJsonKeys(w);
    WindowKeysDistinct();
    LookupFirst(WindowJson(w).members, WINDOW_KEYS[k], k);
  }

  /**
   * The saved document holds one object per window, in list order, each
   * with the eleven member names in order and an argument array of exactly
   * cmd[0..cmd_argc), which is all of cmd; its count member is the list length.
   */
  lemma SessionJsonShape(list: seq<WindowInfo>)
    requires forall w <- list :: ArgcStored(w)
    ensures GetObjectItem(Some(SessionJson(list)), "count") == Some(JNumber(|list|))
    ensures ArraySize(GetObjectItem(Some(SessionJson(list)), "windows")) == |list|
    ensures forall i :: 0 <= i < |list| ==>
      var win := GetArrayItem(GetObjectItem(Some(SessionJson(list)), "windows"), i).value;
      && win.JObject?
      && |win.members| == |WINDOW_KEYS|
      && (forall k :: 0 <= k < |WINDOW_KEYS| ==> win.members[k].key == WINDOW_KEYS[k])
      && Children(GetObjectItem(Some(win), "cmd")) == ArgsJson(list[i].cmd)
  {
    LookupFirst(SessionJson(list).members, "count", 1);
    forall i | 0 <= i < |list|
      ensures
        var win := GetArrayItem(GetObjectItem(Some(SessionJson(list)), "windows"), i).value;
        && win.JObject?
        && |win.members| == |WINDOW_KEYS|
        && (forall k :: 0 <= k < |WINDOW_KEYS| ==> win.members[k].key == WINDOW_KEYS[k])
        && Children(GetObjectItem(Some(win), "cmd")) == ArgsJson(list[i].cmd)
    {
      var win := WindowJson(list[i]);
      assert list[i] in list;
      assert GetArrayItem(GetObjectItem(Some(SessionJson(list)), "windows"), i).value == win;
      WindowJsonKeys(list[i]);
      SavedMember(list[i], 10);
      assert list[i].cmd[..list[i].cmdArgc] == list[i].cmd;
    }
  }

  /** Builds the document with an outer loop over the windows and an inner one over the arguments. */
  method BuildSessionJson(list: seq<WindowInfo>) returns (root: Json)
    requires forall w <- list :: ArgcStored(w)
    ensures root == SessionJson(list)
  {
    ghost var all := seq(|list|, k requires 0 <= k < |list| => WindowJson(list[k]));
    var windows: seq<Json> := [];
    var i := 0;
    while i < |list|
      invariant 0 <= i <= |list|
      invariant windows == all[..i]
    {
      var w := list[i];
      assert w in list;
      var cmdArr: seq<Json> := [];
      var j := 0;
      while j < w.cmdArgc
        invariant 0 <= j <= w.cmdArgc
        invariant cmdArr == ArgsJson(w.cmd[..j])
      {
        ArgsJsonSnoc(w.cmd, j);
        cmdArr := cmdArr + [JString(w.cmd[j])];
        j := j + 1;
      }
      var win := JObject([
        Member("pid", JNumber(w.pid)),
        Member("title", JString(w.title)),
        Member("exe_path", JString(w.exePath)),
        Member("x", JNumber(w.x)),
        Member("y", JNumber(w.y)),
        Member("width", JNumber(w.width)),
        Member("height", JNumber(w.height)),
        Member("desktop", JNumber(w.desktop)),
        Member("is_maximized", JNumber(w.isMaximized)),
        Member("is_minimized", JNumber(w.isMinimized)),
        Member("cmd", JArray(cmdArr))]);
      assert win == all[i];
      PrefixSnoc(all, i);
      windows := windows + [win];
      i := i + 1;
    }
    assert all[..i] == all;
    root := JObject([Member("windows", JArray(windows)), Member("count", JNumber(|list|))]);
  }

  lemma ArgsJsonSnoc(args: seq<string>, j: nat)
    requires j < |args|
    ensures ArgsJson(args[..j + 1]) == ArgsJson(args[..j]) + [JString(args[j])]
  {
  }

  /**
   * `save_session`: -1 with the file system untouched when printing the
   * document yields nothing or the file cannot be opened for writing;
   * otherwise 0. Opening truncates the file, and the results of writing
   * and closing are not looked at: when `written` is false the write came
   * up short and the path is left holding a file that does not parse,
   * yet the code is still 0.
   */
  method SaveSession(
    files: FileSystem, home: Option<string>, profile: Option<string>, list: seq<WindowInfo>,
    printed: bool, canOpen: bool, written: bool)
    returns (code: int, files': FileSystem)
    requires |list| <= MAX_WINDOWS
    requires forall w <- list :: ArgcStored(w)
    ensures code == 0 || code == -1
    ensures code == 0 <==> printed && canOpen
    ensures code == 0 && written ==> files' == files[SessionFile(home, profile) := Some(SessionJson(list))]
    ensures code == 0 && !written ==> files' == files[SessionFile(home, profile) := None]
    ensures code == -1 ==> files' == files
  {
    var root := BuildSessionJson(list);
    if !printed {
      return -1, files;
    }
    var file := SessionFile(home, profile);
    if !canOpen {
      return -1, files;
    }
    if written {
      files' := files[file := Some(root)];
    } else {
      files' := files[file := None];
    }
    return 0, files';
  }

  // ---------------------------------------------------------------------
  // Loading

  /** A numeric member: absent stays 0, a non-number reads as 0. */
  function NumberField(win: Option<Json>, key: string): int {
    var item := GetObjectItem(win, key);
    if item.None? then 0 else NumberOf(item.value)
  }

  /**
   * A text member copied as written: absent leaves the buffer empty, a
   * string is cut to `limit` characters, and any other value has a NULL
   * `valuestring` that strncpy dereferences (None).
   */
  function StringFieldAsWritten(win: Option<Json>, key: string, limit: nat): Option<string> {
    var item := GetObjectItem(win, key);
    if item.None? then Some("")
    else if StringOf(item.value).None? then None
    else Some(Truncate(StringOf(item.value).value, limit))
  }

  /** A window whose title is a number makes the loader copy from a NULL string. */
  lemma NonStringTitleDereferencesNull()
    ensures StringFieldAsWritten(Some(JObject([Member("title", JNumber(7))])), "title", TITLE_SIZE - 1).None?
  {
  }

  /** A text member guarded as the argument copy is: only a string is copied, anything else leaves it empty. */
  function StringField(win: Option<Json>, key: string, limit: nat): (s: string)
    ensures |s| <= limit
  {
    var item := GetObjectItem(win, key);
    if item.Some? && item.value.JString? then Truncate(item.value.s, limit) else ""
  }

  /** The guarded copy agrees with the copy as written wherever that one does not fault. */
  lemma StringFieldAgrees(win: Option<Json>, key: string, limit: nat)
    ensures StringFieldAsWritten(win, key, limit).Some? ==>
      StringField(win, key, limit) == StringFieldAsWritten(win, key, limit).value
    ensures StringFieldAsWritten(win, key, limit).None? ==> StringField(win, key, limit) == ""
  {
  }

  /** One argument row: a string is cut to 511 characters, anything else leaves the row empty. */
  function ArgOf(item: Option<Json>): string {
    if item.Some? && item.value.JString? then Truncate(item.value.s, MAX_ARG_LEN - 1) else ""
  }

  /** The argument rows filled from the first 64 entries of the array. */
  function ArgsFromJson(cmdArr: Option<Json>): seq<string> {
    var n := Min(ArraySize(cmdArr), MAX_CMD_ARGS);
    seq(n, j requires 0 <= j < n => ArgOf(GetArrayItem(cmdArr, j)))
  }

  /**
   * One loaded record: zeroed, then every member present copied in; the
   * count field takes the full length of the argument array.
   */
  function WindowFromJson(win: Option<Json>): WindowInfo {
    var cmdArr := GetObjectItem(win, "cmd");
    WindowInfo(
      0,
      NumberField(win, "pid"),
      NumberField(win, "x"),
      NumberField(win, "y"),
      NumberField(win, "width"),
      NumberField(win, "height"),
      NumberField(win, "desktop"),
      NumberField(win, "is_maximized"),
      NumberField(win, "is_minimized"),
      StringField(win, "title", TITLE_SIZE - 1),
      ArgsFromJson(cmdArr),
      ArraySize(cmdArr),
      StringField(win, "exe_path", EXE_PATH_SIZE - 1))
  }

  /** The records of the first MAX_WINDOWS children of the windows member, in order; count is not read. */
  function WindowsFromJson(root: Json): seq<WindowInfo> {
    var arr := GetObjectItem(Some(root), "windows");
    var n := Min(ArraySize(arr), MAX_WINDOWS);
    seq(n, i requires 0 <= i < n => WindowFromJson(GetArrayItem(arr, i)))
  }

  /** `load_session`: NULL when the file cannot be opened or does not parse. */
  function LoadedSession(files: FileSystem, home: Option<string>, profile: Option<string>): (loaded: Option<seq<WindowInfo>>)
    ensures loaded.Some? ==> forall w <- loaded.value :: FitsBuffers(w)
  {
    var file := SessionFile(home, profile);
    if file !in files || files[file].None? then None
    else
      LoadBounds(files[file].value);
      Some(WindowsFromJson(files[file].value))
  }

  /** Fills one zeroed record from a window object, the arguments in a loop of their own. */
  method LoadWindow(win: Option<Json>) returns (w: WindowInfo)
    ensures w == WindowFromJson(win)
  {
    w := ZeroWindow;
    w := w.(pid := NumberField(win, "pid"));
    w := w.(title := StringField(win, "title", TITLE_SIZE - 1));
    w := w.(exePath := StringField(win, "exe_path", EXE_PATH_SIZE - 1));
    w := w.(x := NumberField(win, "x"), y := NumberField(win, "y"));
    w := w.(width := NumberField(win, "width"), height := NumberField(win, "height"));
    w := w.(desktop := NumberField(win, "desktop"));
    w := w.(isMaximized := NumberField(win, "is_maximized"), isMinimized := NumberField(win, "is_minimized"));
    var cmdArr := GetObjectItem(win, "cmd");
    if cmdArr.Some? {
      var argc := ArraySize(cmdArr);
      var cmd: seq<string> := [];
      var j := 0;
      while j < argc && j < MAX_CMD_ARGS
        invariant 0 <= j <= Min(argc, MAX_CMD_ARGS)
        invariant cmd == seq(j, k requires 0 <= k < j => ArgOf(GetArrayItem(cmdArr, k)))
      {
        var arg := GetArrayItem(cmdArr, j);
        var row := "";
        if arg.Some? && StringOf(arg.value).Some? {
          row := Truncate(StringOf(arg.value).value, MAX_ARG_LEN - 1);
        }
        cmd := cmd + [row];
        j := j + 1;
      }
      w := w.(cmd := cmd, cmdArgc := argc);
    }
  }

  /** Reads the profile's file and fills the list one window at a time. */
  method LoadSession(files: FileSystem, home: Option<string>, profile: Option<string>)
    returns (result: Option<seq<WindowInfo>>)
    ensures result == LoadedSession(files, home, profile)
  {
    var file := SessionFile(home, profile);
    if file !in files || files[file].None? {
      return None;
    }
    var root := files[file].value;
    var windowsArr := GetObjectItem(Some(root), "windows");
    var count := ArraySize(windowsArr);
    ghost var all := WindowsFromJson(root);
    var list: seq<WindowInfo> := [];
    var i := 0;
    while i < count && i < MAX_WINDOWS
      invariant 0 <= i <= |all| == Min(count, MAX_WINDOWS)
      invariant list == all[..i]
    {
      var w := LoadWindow(GetArrayItem(windowsArr, i));
      assert all[i] == w;
      PrefixSnoc(all, i);
      list := list + [w];
      i := i + 1;
    }
    assert all[..i] == all;
    return Some(list);
  }

  // ---------------------------------------------------------------------
  // Properties of loading

  /**
   * A loaded list has min(array length, 256) records, whatever the stored
   * count says; every record has window id 0 and fits the C struct.
   */
  lemma LoadBounds(root: Json)
    ensures |WindowsFromJson(root)| == Min(ArraySize(GetObjectItem(Some(root), "windows")), MAX_WINDOWS)
    ensures forall w <- WindowsFromJson(root) :: w.windowId == 0 && FitsBuffers(w)
  {
  }

  /** Every member that is missing leaves its field zeroed; an empty object loads as the zeroed record. */
  lemma LoadDefaults(win: Option<Json>)
    ensures var w := WindowFromJson(win);
      && (GetObjectItem(win, "pid").None? ==> w.pid == 0)
      && (GetObjectItem(win, "x").None? ==> w.x == 0)
      && (GetObjectItem(win, "y").None? ==> w.y == 0)
      && (GetObjectItem(win, "width").None? ==> w.width == 0)
      && (GetObjectItem(win, "height").None? ==> w.height == 0)
      && (GetObjectItem(win, "desktop").None? ==> w.desktop == 0)
      && (GetObjectItem(win, "is_maximized").None? ==> w.isMaximized == 0)
      && (GetObjectItem(win, "is_minimized").None? ==> w.isMinimized == 0)
      && (GetObjectItem(win, "title").None? ==> w.title == "")
      && (GetObjectItem(win, "exe_path").None? ==> w.exePath == "")
      && (GetObjectItem(win, "cmd").None? ==> w.cmdArgc == 0 && w.cmd == [])
    ensures WindowFromJson(Some(JObject([]))) == ZeroWindow
  {
  }

  /**
   * An argument array longer than 64 keeps 64 rows but sets the count
   * field to its full length, so the record no longer satisfies ArgcStored.
   */
  lemma LoadQuirk(win: Option<Json>, args: seq<Json>)
    requires GetObjectItem(win, "cmd") == Some(JArray(args))
    requires |args| > MAX_CMD_ARGS
    ensures WindowFromJson(win).cmdArgc == |args|
    ensures |WindowFromJson(win).cmd| == MAX_CMD_ARGS
    ensures !ArgcStored(WindowFromJson(win))
  {
  }

  // ---------------------------------------------------------------------
  // Round trip

  /** One window survives save and load unchanged except for its window id. */
  lemma WindowRoundTrip(w: WindowInfo)
    requires ArgcStored(w)
    ensures WindowFromJson(Some(WindowJson(w))) == w.(windowId := 0)
  {
    var win := Some(WindowJson(w));
    var w' := WindowFromJson(win);
    SavedScalars(w);
    SavedStrings(w);
    SavedArgs(w);
    assert w'.cmd == w.cmd;
  }

  lemma SavedScalars(w: WindowInfo)
    requires ArgcStored(w)
    ensures var win := Some(WindowJson(w));
      && NumberField(win, "pid") == w.pid
      && NumberField(win, "x") == w.x
      && NumberField(win, "y") == w.y
      && NumberField(win, "width") == w.width
      && NumberField(win, "height") == w.height
      && NumberField(win, "desktop") == w.desktop
      && NumberField(win, "is_maximized") == w.isMaximized
      && NumberField(win, "is_minimized") == w.isMinimized
  {
    SavedMember(w, 0);
    SavedMember(w, 3);
    SavedMember(w, 4);
    SavedMember(w, 5);
    SavedMember(w, 6);
    SavedMember(w, 7);
    SavedMember(w, 8);
    SavedMember(w, 9);
  }

  lemma SavedStrings(w: WindowInfo)
    requires ArgcStored(w)
    ensures var win := Some(WindowJson(w));
      && StringField(win, "title", TITLE_SIZE - 1) == w.title
      && StringField(win, "exe_path", EXE_PATH_SIZE - 1) == w.exePath
  {
    SavedMember(w, 1);
    SavedMember(w, 2);
  }

  lemma SavedArgs(w: WindowInfo)
    requires ArgcStored(w)
    ensures var cmdArr := GetObjectItem(Some(WindowJson(w)), "cmd");
      ArraySize(cmdArr) == w.cmdArgc && ArgsFromJson(cmdArr) == w.cmd
  {
    SavedMember(w, 10);
    var cmdArr := GetObjectItem(Some(WindowJson(w)), "cmd");
    assert w.cmd[..w.cmdArgc] == w.cmd;
    var args := ArgsFromJson(cmdArr);
    forall j | 0 <= j < |args|
      ensures args[j] == w.cmd[j]
    {
      assert w.cmd[j] in w.cmd;
    }
  }

  /** The window ids cleared, as loading a saved list gives them back. */
  function WithoutIds(list: seq<WindowInfo>): (r: seq<WindowInfo>)
    ensures |r| == |list|
  {
    seq(|list|, i requires 0 <= i < |list| => list[i].(windowId := 0))
  }

  /**
   * A list within bounds survives save and load field by field, in order,
   * except that every window id comes back 0.
   */
  lemma SaveLoadRoundTrip(list: seq<WindowInfo>)
    requires |list| <= MAX_WINDOWS
    requires forall w <- list :: ArgcStored(w)
    ensures WindowsFromJson(SessionJson(list)) == WithoutIds(list)
  {
    var loaded := WindowsFromJson(SessionJson(list));
    var arr := GetObjectItem(Some(SessionJson(list)), "windows");
    assert ArraySize(arr) == |list|;
    forall i | 0 <= i < |list|
      ensures loaded[i] == WithoutIds(list)[i]
    {
      assert list[i] in list;
      assert GetArrayItem(arr, i) == Some(WindowJson(list[i]));
      WindowRoundTrip(list[i]);
    }
  }

  /** After a successful save, loading the same profile gives the list back without ids. */
  lemma SaveThenLoad(files: FileSystem, home: Option<string>, profile: Option<string>, list: seq<WindowInfo>)
    requires |list| <= MAX_WINDOWS
    requires forall w <- list :: ArgcStored(w)
    ensures var files' := files[SessionFile(home, profile) := Some(SessionJson(list))];
      && SessionFileExists(files', home, profile)
      && LoadedSession(files', home, profile) == Some(WithoutIds(list))
  {
    SaveLoadRoundTrip(list);
  }

  /**
   * Saving a named profile leaves what every other named profile loads
   * unchanged, for names without '/' whose paths fit the buffer.
   */
  lemma SaveKeepsOtherProfiles(
    files: FileSystem, home: Option<string>, a: string, b: string, root: Json)
    requires a != b && a != DEFAULT_PROFILE && b != DEFAULT_PROFILE
    requires '/' !in a && '/' !in b
    requires |FullSessionPath(home, Some(a))| < PATH_SIZE && |FullSessionPath(home, Some(b))| < PATH_SIZE
    ensures LoadedSession(files[SessionFile(home, Some(a)) := Some(root)], home, Some(b))
      == LoadedSession(files, home, Some(b))
  {
    NamedSessionFile(home, a);
    NamedSessionFile(home, b);
    var na := UnderHome(home, [".sessionsnap", "sessions", a + ".json"]).names;
    var nb := UnderHome(home, [".sessionsnap", "sessions", b + ".json"]).names;
    assert na[|na| - 1] == a + ".json" && nb[|nb| - 1] == b + ".json";
    assert (a + ".json")[..|a|] == a && (b + ".json")[..|b|] == b;
  }

  /**
   * Saving a named profile leaves what the default profile loads unchanged,
   * and saving the default profile leaves what a named profile loads
   * unchanged, for a name without '/' while both paths fit the buffer.
   */
  lemma SaveKeepsDefaultProfile(files: FileSystem, home: Option<string>, a: string, root: Json)
    requires a != DEFAULT_PROFILE && '/' !in a
    requires |FullSessionPath(home, Some(a))| < PATH_SIZE && |FullSessionPath(home, None)| < PATH_SIZE
    ensures LoadedSession(files[SessionFile(home, Some(a)) := Some(root)], home, None)
      == LoadedSession(files, home, None)
    ensures LoadedSession(files[SessionFile(home, None) := Some(root)], home, Some(a))
      == LoadedSession(files, home, Some(a))
  {
    NamedSessionFile(home, a);
    assert |UnderHome(home, [".sessionsnap", "sessions", a + ".json"]).names|
      != |UnderHome(home, [".sessionsnap", "session.json"]).names|;
  }

  /** Saving the profile "../session" replaces what the default profile loads. */
  lemma SaveDotDotReplacesDefault(files: FileSystem, home: Option<string>, list: seq<WindowInfo>)
    requires home.Some?
    requires |list| <= MAX_WINDOWS
    requires forall w <- list :: ArgcStored(w)
    requires |FullSessionPath(home, Some("../session"))| < PATH_SIZE
    ensures LoadedSession(files[SessionFile(home, Some("../session")) := Some(SessionJson(list))], home, None)
      == Some(WithoutIds(list))
  {
    DotDotProfileIsDefault(home);
    SaveThenLoad(files, home, None, list);
  }

  /** A capture survives save and load: the captured list comes back without its window ids. */
  lemma CaptureRoundTrip(cs: seq<Capture.Client>, procs: Capture.ProcTable)
    ensures var list := Capture.Captured(Some(cs), procs);
      && (forall w <- list :: ArgcStored(w))
      && WindowsFromJson(SessionJson(list)) == WithoutIds(list)
  {
    var list := Capture.Captured(Some(cs), procs);
    Capture.CapturedRetained(cs, procs);
    Capture.CapturedAt(cs, procs);
    SaveLoadRoundTrip(list);
  }
}

=== FILE: snapshot.dfy ===
/**
 * The window record shared by the enumerator, the session store and the
 * restore engine, with the fixed capacities of its C arrays.
 */
module Snapshot {
  import opened CStrings

  /** Capacity of a window list. */
  const MAX_WINDOWS: nat := 256
  /** Number of argument rows in a window record. */
  const MAX_CMD_ARGS: nat := 64
  /** Size of one argument row, its terminating NUL included. */
  const MAX_ARG_LEN: nat := 512
  /** Size of the title buffer, its terminating NUL included. */
  const TITLE_SIZE: nat := 256
  /** Size of the executable-path buffer, its terminating NUL included. */
  const EXE_PATH_SIZE: nat := 512

  /**
   * One window. `cmd` holds the argument rows that have storage, so
   * |cmd| is at most MAX_CMD_ARGS, while `cmdArgc` is the count field,
   * which a loaded record may set above MAX_CMD_ARGS.
   */
  datatype WindowInfo = WindowInfo(
    windowId: nat,
    pid: int,
    x: int,
    y: int,
    width: int,
    height: int,
    desktop: int,
    isMaximized: int,
    isMinimized: int,
    title: string,
    cmd: seq<string>,
    cmdArgc: nat,
    exePath: string)

  /** A record after `memset(&info, 0, sizeof info)` or `calloc`. */
  const ZeroWindow: WindowInfo := WindowInfo(0, 0, 0, 0, 0, 0, 0, 0, 0, "", [], 0, "")

  /** The record fits the C struct: every string below its buffer size. */
  predicate FitsBuffers(w: WindowInfo) {
    && |w.title| < TITLE_SIZE
    && |w.exePath| < EXE_PATH_SIZE
    && |w.cmd| == Min(w.cmdArgc, MAX_CMD_ARGS)
    && forall a <- w.cmd :: |a| < MAX_ARG_LEN
  }

  /** The record's count field names only stored rows. */
  predicate ArgcStored(w: WindowInfo) {
    FitsBuffers(w) && w.cmdArgc <= MAX_CMD_ARGS
  }
}

=== FILE: wrappers.dfy ===
/** Optional values: a C pointer that may be NULL, a property that may be absent. */
module Wrappers {

  datatype Option<+T> = None | Some(value: T)
}
